=== FILE: README.md ===
# Pipecat React Native transports — a Dafny model

This project models the bookkeeping of the Pipecat React Native transports:

- the Daily transport's transport-state machine and its handling of the Daily engine's events;
- the normaliser for the connection parameters handed to `connect`;
- the guarded call handle the transport exposes to applications;
- the classification of camera errors into device errors;
- the Daily media manager's initialise/connect/disconnect flags and its pending connect;
- the small-WebRTC audio-level observers with their three-strikes failure counter;
- the media-manager base with its option defaults.

Every operation is a pure step. It takes the component's state, the call or event, and the answers of the media engine, which are inputs here. It returns the new state and the ordered effects the step produces. An effect is an application callback (`Notify`) or a call into the engine (`Call`).

The modules follow the source components:

| module | component |
|---|---|
| `Types` | transport states, participants, JavaScript values, devices |
| `DeviceErrors` | `generateDeviceError`, shared by both Daily components |
| `DeviceSelection` | the selected-device comparison, as written and corrected (see Findings) |
| `Notifications` | callbacks and engine calls |
| `EngineEvents` | the Daily engine events and the handlers both Daily components share |
| `ConnectionParams` | `_validateConnectionParams` |
| `CallWrapper` | `DailyCallWrapper` |
| `DailyTransport` | `RNDailyTransport` |
| `MediaManager` | the abstract `MediaManager` base (small-WebRTC copy; `types/media-manager/mediaManager.ts` is the same base without the track-hook accessors) |
| `DailyMediaManager` | `DailyMediaManager` |
| `AudioStats` | reading a level out of a WebRTC statistics report |
| `AudioLevelObserver` | the local-and-remote level observer |
| `LocalAudioLevelObserver` | the local-only level observer |

Where the code and its documentation differ, the model follows the code:

- A truthy legacy alias (`room_url`, `dailyRoom`, `dailyToken`) overwrites an explicit `url` or `token`; the canonical field does not win.
- The device list of a `permissions`, `not-found` or `constraints` error is empty when the engine's media list is empty.
- Every non-local participant that joins becomes the bot, not only the first one.
- The speaker list is the devices of kind `audio`, the same list as the microphones.
- The selected-devices handlers announce again every device the engine reports, even an unchanged one; the handlers with the comparison corrected are separate members (see Findings).


## Model

| member | source | states |
|---|---|---|
| Types.ToParticipant | transports/daily/src/transport.ts:611-615 | the participant handed to callbacks carries the engine's user id (not its session id), user name and local flag |
| Types.DevicesOfKind | transports/daily/src/transport.ts:423-431 | the filtered list holds exactly the devices of the requested kind and is no longer than the input; a one-device list is kept iff its device has the kind |
| Types.DevicesOfKindCounts | transports/daily/src/transport.ts:423-431 | every device of the kind is kept as many times as it is listed, and no other device is kept |
| Types.DevicesOfKindAppend | transports/daily/src/transport.ts:423-431 | filtering a concatenation gives the filtered parts in order; with the one-device case this pins the result to the devices of the kind in enumeration order |
| DeviceErrors.MediaToDevice | transports/daily/src/transport.ts:461 | a media entry is the camera iff it is `video`; it is never the speaker |
| DeviceErrors.MediaToDevices | transports/daily/src/transport.ts:460-462 | the device list has the media list's length and maps it entry by entry, in order |
| DeviceErrors.GenerateDeviceError | transports/daily/src/transport.ts:453-504 | the message is kept. The list variants map their media lists. The type is `in-use` iff the variant is one of the three in-use ones, which yield `[cam]`, `[mic]`, `[cam, mic]`. Every other type passes through with `[cam, mic]`. Only permissions errors carry `blockedBy` and only constraints errors carry `reason` |
| DeviceErrors.DevicesEmptyOnlyForEmptyMediaList | transports/daily/src/transport.ts:457-501 | the device list is empty exactly for a list variant whose media list is empty |
| DeviceErrors.NeverSpeaker | transports/daily/src/transport.ts:458-501 | no camera error ever names the speaker |
| DeviceErrors.CamFlaggedIffVideo | transports/daily/src/transport.ts:459-480 | for the list variants, the camera is named iff the media list contains `video` |
| DeviceErrors.TypeNamePreserved | transports/daily/src/transport.ts:481-500 | the application sees the engine's type string unchanged, except that the three in-use variants all become `in-use` |
| DeviceSelection.ReselectNotifiesAsWritten | transports/daily/src/transport.ts:439 | as written, the selection comparison reports a change when the stored device is announced again |
| DeviceSelection.ReselectSameCameraAsWritten | libs/daily-media-manager/src/dailyMediaManager.ts:234-237 | concrete case: stored camera `A`, event camera `A`, and the comparison as written still says changed |
| DeviceSelection.DiffAsWritten | transports/daily/src/transport.ts:439-442 | one device class as written: a notification iff the as-written comparison says changed; any device the event carries is stored and reported; only an event with no device and a stored value without an id is silent, and then the stored value stays |
| DeviceSelection.Diff | transports/daily/src/transport.ts:439-442 | one device class with the ids compared: a notification iff the ids differ, and then the incoming device is stored; otherwise the stored value stays; afterwards the stored id is the incoming one |
| DeviceSelection.DiffIdempotent | transports/daily/src/transport.ts:439-450 | with the ids compared, announcing the stored selection again is silent, and diffing the same event twice notifies at most once |
| EngineEvents.HandleAppMessage | transports/daily/src/transport.ts:409-418 | only messages labelled `rtvi-ai` reach the message handler, with id, type and data unchanged; any other label produces nothing |
| EngineEvents.AppMessageRoundTrip | transports/daily/src/transport.ts:409-418 | a client-protocol message delivered under the `rtvi-ai` label reaches the handler equal to the message sent; under any other label its fields are dropped |
| EngineEvents.AvailableDevicesNotes | transports/daily/src/transport.ts:420-432 | cameras, microphones, then speakers are announced; the cameras are the `videoinput` filter and the microphones the `audio` filter of the engine's list (so order and multiplicity follow `DevicesOfKind`), and the speakers the same list as the microphones |
| EngineEvents.DeviceErrorNotes | transports/daily/src/transport.ts:503 | exactly one device-error callback, carrying the classified error, with the engine's message; its device list is empty only for an empty media list |
| EngineEvents.RemoteLevelNotes | transports/daily/src/transport.ts:570-587 | every entry with a non-zero level and a known participant is reported, attributed to that participant; every report comes from such an entry; there are no more reports than entries; a one-entry list reports exactly its entry if reportable and nothing otherwise |
| EngineEvents.RemoteLevelNotesAppend | transports/daily/src/transport.ts:570-587 | the reports of concatenated entries are the reports of each part, in order; with the one-entry case this gives one report per reportable entry, in the event's key order, and no duplicates |
| EngineEvents.SilenceReportsNothing | transports/daily/src/transport.ts:579 | when every level is zero nothing is reported |
| ConnectionParams.Normalize | transports/daily/src/transport.ts:305-319 | `url` becomes the first truthy of `room_url`, `dailyRoom`, else keeps its value; a used alias is removed and an unused one kept; `token` is present only when truthy and is then `dailyToken` if truthy, else the old token; every other key is untouched |
| ConnectionParams.Validate | transports/daily/src/transport.ts:290-321 | undefined or null give no parameters; any other non-object raises the invalid-parameters error; an object is normalised |
| ConnectionParams.LegacyAliasesExample | transports/daily/src/transport.ts:305-319 | `{room_url: "https://x/y", dailyToken: "abc"}` becomes exactly `{url: "https://x/y", token: "abc"}` |
| ConnectionParams.AliasOverridesCanonicalUrl | transports/daily/src/transport.ts:305-307 | a truthy `room_url` overwrites an existing `url` |
| ConnectionParams.NormalizeIdempotent | transports/daily/src/transport.ts:305-319 | normalising the result again changes nothing, unless both room aliases were truthy |
| ConnectionParams.NormalizeNotIdempotentWithBothAliases | transports/daily/src/transport.ts:305-311 | with both room aliases truthy the leftover `dailyRoom` makes a second pass change `url` |
| CallWrapper.Get | transports/daily/src/transport.ts:43-77 | reading a property never throws: it yields a replacement function that throws when called iff the property is a method named `preAuth`, `startCamera`, `join`, `leave` or `destroy`, and that function's message is the method's own, starts with "Calls to <name>() are disabled." and is never empty; everything else is forwarded |
| DailyTransport.New | transports/daily/src/transport.ts:93-107 | a new transport has no bot, empty selections and the given factory options |
| DailyTransport.SetState | transports/daily/src/transport.ts:146-151 | setting the current state emits nothing; any other state is stored and announced exactly once with the new value |
| DailyTransport.SetStatesAnnouncesChanges | transports/daily/src/transport.ts:146-151 | over any run of setter calls: the final state is the last one set; every effect is a state announcement; the first differs from the initial state; no two consecutive ones are equal; the last carries the final state; there are never more announcements than calls |
| DailyTransport.ApplyMediaDefaults | transports/daily/src/transport.ts:116-129 | an explicit camera or mic option sets `startVideoOff`/`startAudioOff` to its negation; without one, an unset (nullish) factory value defaults to camera off and mic on, and a set one is kept; other keys are untouched |
| DailyTransport.Initialize | transports/daily/src/transport.ts:109-136 | the transport afterwards is the old one with the media defaults applied to its options and the state `disconnected`, nothing else changed; the only effect is the announcement of `disconnected`, present only if the state changed |
| DailyTransport.InitializeIdempotent | transports/daily/src/transport.ts:109-136 | for the transport's bookkeeping: initialising again with the same options leaves the transport, media defaults included, as the first call left it, and announces nothing |
| DailyTransport.PreAuth | transports/daily/src/transport.ts:256-259 | the call options replace the factory options outright and the engine is asked to pre-authenticate with them; nothing else changes |
| DailyTransport.PreAuthDropsMediaDefaults | transports/daily/src/transport.ts:256-259 | after `initialize` and then `preAuth`, the connect joins with the call options merged with the connection parameters only; when neither sets `startVideoOff`, it is undefined at the join, so the camera default is lost |
| DailyTransport.ObserverStarts | transports/daily/src/transport.ts:281-285 | a level observer is started, with the 100 ms interval, iff it is not running; the local one first; nothing but these starts |
| DailyTransport.InitDevices | transports/daily/src/transport.ts:261-288 | `initializing` is announced first unless already current, and the camera is started right after. A `startCamera` or `enumerateDevices` rejection is raised with nothing more announced; a `getInputDevices` rejection is raised after the camera and microphone lists; after a rejection the transport is `initializing` and otherwise unchanged. Without one: the camera list, the microphone list, the camera and mic in use stored and announced, the observers not yet running started, and `initialized` announced last |
| DailyTransport.InitDevicesQuiet | transports/daily/src/transport.ts:261-288 | whatever the engine answers, device initialisation neither announces `connected` nor fires the connected callback |
| DailyTransport.MergedOptions | transports/daily/src/transport.ts:328-333 | the join options are the factory options overridden key by key by the connection parameters |
| DailyTransport.Connect | transports/daily/src/transport.ts:323-350 | the exact step: the options become the merged join options; `connecting` is announced, then the join with those options. A failed join ends in `error` and raises the start error. An abort after a successful join stops in `connecting` with nothing more. Otherwise `connected` is announced and then `onConnected` fires; the bot and the selections are untouched |
| DailyTransport.FullJoinAnnouncesOnce | transports/daily/src/transport.ts:335-349 | a connect whose join succeeds unaborted announces `connected` exactly once and fires the connected callback exactly once |
| DailyTransport.StepAnnouncesConnection | transports/daily/src/transport.ts:323-350 | any single call or event announces `connected`, and fires the connected callback, once if it is a connect whose join succeeded unaborted and never otherwise |
| DailyTransport.ConnectionOnlyFromFullJoins | transports/daily/src/transport.ts:323-350 | over any sequence of calls and events, `connected` is announced, and the connected callback fires, exactly as often as a connect's join succeeded without an abort |
| DailyTransport.Disconnect | transports/daily/src/transport.ts:398-403 | the exact step: only the state changes, to `disconnecting`, announced if it changed; then both level observers are stopped and the engine leaves, in that order |
| DailyTransport.TrackNotes | transports/daily/src/transport.ts:506-540 | exactly one callback; it is a screen-track callback iff the type is `screenAudio` or `screenVideo`, a started one iff the track started, and carries the track and its projected owner |
| DailyTransport.TrackStopMatchesStart | transports/daily/src/transport.ts:506-540 | a track's stop goes to the same kind of callback as its start, screen or not, with the same track and owner |
| DailyTransport.HandleParticipantJoined | transports/daily/src/transport.ts:542-552 | every join is announced first; a local join changes nothing else; a remote join becomes the bot (by session id) and fires the bot-connected callback |
| DailyTransport.HandleParticipantLeft | transports/daily/src/transport.ts:554-564 | every departure is announced first; a remote departure clears the bot and fires the bot-disconnected callback |
| DailyTransport.HandleLeftMeeting | transports/daily/src/transport.ts:589-593 | the exact step: the state becomes `disconnected` (announced if it changed) and the bot is forgotten, nothing else changes, and the disconnection callback fires last |
| DailyTransport.HandleFatalError | transports/daily/src/transport.ts:595-600 | the exact step: the state becomes `error` (announced if it changed) and the bot is forgotten, nothing else changes, and a fatal error with the engine's message is raised last |
| DailyTransport.DisconnectThenLeftMeeting | transports/daily/src/transport.ts:398-403 | a disconnect followed by left-meeting ends `disconnected` with no bot and otherwise as before; the effects are exactly the `disconnecting` announcement, the two observer stops, the leave, the `disconnected` announcement and the disconnection callback |
| DailyTransport.NonFatalNotes | transports/daily/src/transport.ts:602-608 | a `screen-share-error` produces the screen-share callback; every other non-fatal error produces nothing |
| DailyTransport.HandleSelectedDevices | transports/daily/src/transport.ts:435-451 | as written: each of camera, mic and speaker is stored and announced iff the as-written comparison says changed, and otherwise left as stored, so an event naming all three announces all three, in that order, whatever was stored; the effects are exactly those announcements, camera, mic, speaker, and nothing else; state, bot and options are untouched |
| DailyTransport.HandleSelectedDevicesCorrected | transports/daily/src/transport.ts:435-451 | with the ids compared: each of camera, mic and speaker is stored and announced iff its id changed, and otherwise left as stored; the effects are exactly those announcements in that order and nothing else; state, bot and options are untouched |
| DailyTransport.UpdateCam | transports/daily/src/transport.ts:162-167 | the only effect is the request to switch camera; when the switch and the in-use query succeed, the camera reported in use becomes the selection; when either is rejected, nothing changes |
| DailyTransport.UpdateMic | transports/daily/src/transport.ts:178-183 | the only effect is the request to switch input; when the switch and the in-use query succeed, the mic reported in use becomes the selection; when either is rejected, nothing changes |
| DailyTransport.UpdateSpeaker | transports/daily/src/transport.ts:194-199 | the only effect is the request to switch output; when the switch and the in-use query succeed, the speaker reported in use becomes the selection; when either is rejected, nothing changes |
| DailyTransport.UpdateThenSelectionEventReannounces | transports/daily/src/transport.ts:439-450 | as written, after three successful updates the engine's event reporting the devices now in use announces camera, mic and speaker again |
| DailyTransport.UpdateThenSelectionEventIsQuiet | transports/daily/src/transport.ts:439-450 | with the ids compared, the same event after the same updates announces nothing and changes nothing |
| DailyTransport.HandleEvent | transports/daily/src/transport.ts:366-396 | each event with a handler of its own goes to that handler, every other event only relays its notes; only left-meeting and fatal errors change the state; only remote joins and departures, left-meeting and fatal errors touch the bot; only the selected-devices event touches the selections; no event changes the options or calls the engine |
| DailyTransport.EventsNeverAnnounceConnection | transports/daily/src/transport.ts:366-396 | no engine event announces `connected` or fires the connected callback |
| DailyTransport.BotAfterEvent | transports/daily/src/transport.ts:542-600 | one event's effect on the bot: a remote join makes its session the bot; a remote departure, left-meeting or fatal error clears it; every other event leaves it |
| DailyTransport.BotIdTracksLastBotEvent | transports/daily/src/transport.ts:542-600 | after any event sequence the bot id is the session of the last remote join, or empty if a remote departure, left-meeting or fatal error came later |
| DailyTransport.FatalErrorWhileConnected | transports/daily/src/transport.ts:595-600 | a fatal error while connected produces exactly the `error` announcement and one fatal error callback, and forgets the bot |
| MediaManager.New | transports/smallwebrtc/src/media-manager/mediaManager.ts:28-32 | a new manager has the mic on, the camera off, screen sharing unsupported, and no options or hooks |
| MediaManager.SetClientOptions | transports/smallwebrtc/src/media-manager/mediaManager.ts:34-40 | with options already set and no override nothing changes; otherwise the options are stored with callbacks defaulting to none, mic to on and camera to off; screen-share support and hooks are untouched |
| MediaManager.FirstOptionsStick | transports/smallwebrtc/src/media-manager/mediaManager.ts:35 | once options are set, any number of later calls without override leave the manager as it was |
| MediaManager.OverrideLastWins | transports/smallwebrtc/src/media-manager/mediaManager.ts:34-40 | with override, the last options of any sequence are the stored ones, with their mic and camera defaults |
| MediaManager.DefaultsOnNewManager | types/media-manager/mediaManager.ts:17-28 | options leaving mic and camera unset on a new manager give mic on, camera off, no screen sharing |
| MediaManager.SupportsScreenShare | transports/smallwebrtc/src/media-manager/mediaManager.ts:68-70 | the getter returns the stored flag |
| MediaManager.SetOnTrackStarted | transports/smallwebrtc/src/media-manager/mediaManager.ts:72-78 | the getter returns what the setter stored; only that hook changes: the other hook, the options, the flags and the callbacks are untouched |
| MediaManager.SetOnTrackStopped | transports/smallwebrtc/src/media-manager/mediaManager.ts:80-86 | the getter returns what the setter stored; only that hook changes: the other hook, the options, the flags and the callbacks are untouched |
| MediaManager.HooksIndependent | transports/smallwebrtc/src/media-manager/mediaManager.ts:72-86 | setting one hook never disturbs the other, and writing back the value read changes nothing |
| DailyMediaManager.New | libs/daily-media-manager/src/dailyMediaManager.ts:38-71 | a new manager is neither initialised nor connected, has no pending connect, supports screen sharing and holds the given hooks |
| DailyMediaManager.Initialize | libs/daily-media-manager/src/dailyMediaManager.ts:73-105 | a no-op once initialised. Otherwise the camera is started first, with the negated camera and mic flags. A `startCamera` or `enumerateDevices` rejection stops right there; a `getInputDevices` rejection stops after the camera, microphone and speaker lists; either leaves the manager as it was. Without one: the three lists, then the camera and mic in use stored and announced, and the manager initialised. The connect flags are untouched |
| DailyMediaManager.InitializeNeverSettles | libs/daily-media-manager/src/dailyMediaManager.ts:73-105 | whatever the engine answers, initialisation never fires the connect resolver |
| DailyMediaManager.Connect | libs/daily-media-manager/src/dailyMediaManager.ts:107-121 | a settled no-op once connected. Otherwise connected; if already initialised it settles at once, else a resolver is stored, initialisation runs, and the returned promise is pending |
| DailyMediaManager.ConnectSettlesOnLocalAudio | libs/daily-media-manager/src/dailyMediaManager.ts:107-121 | a connect before initialisation returns a pending promise, and whatever initialisation did, the first local audio track then fires the resolver exactly once and clears it |
| DailyMediaManager.Disconnect | libs/daily-media-manager/src/dailyMediaManager.ts:123-129 | both observers are stopped and the engine leaves; after a completed leave the manager is exactly the old one, neither initialised nor connected, a stored connect resolver kept; after a rejected leave nothing changes |
| DailyMediaManager.DisconnectThenConnectRestarts | libs/daily-media-manager/src/dailyMediaManager.ts:107-129 | after a completed leave, a stored resolver is still stored, and the next connect returns a pending promise and runs initialisation again |
| DailyMediaManager.HandleTrackStarted | libs/daily-media-manager/src/dailyMediaManager.ts:320-335 | non-local or unowned tracks change nothing. For a local track the effects are exactly: the connect resolution iff it is audio and a resolver is stored, then the track callback with its owner, then the hook iff one is installed; an audio track always leaves no resolver stored |
| DailyMediaManager.TrackStartResolvesAtMostOnce | libs/daily-media-manager/src/dailyMediaManager.ts:320-326 | a track start fires the resolver at most once, never without a stored one, and clears it when it fires |
| DailyMediaManager.HandleTrackStopped | libs/daily-media-manager/src/dailyMediaManager.ts:337-346 | non-local or unowned tracks produce nothing; for a local one the effects are exactly the track callback with its owner and then the hook iff installed; the manager never changes and nothing settles |
| DailyMediaManager.HandleSelectedDevices | libs/daily-media-manager/src/dailyMediaManager.ts:230-242 | as written: camera and mic are stored and announced iff the as-written comparison says changed, and otherwise kept, so an event naming both announces both, in that order, whatever was stored; the effects are exactly those announcements and nothing else; the speaker is never announced nor stored; nothing else changes |
| DailyMediaManager.HandleSelectedDevicesCorrected | libs/daily-media-manager/src/dailyMediaManager.ts:230-242 | with the ids compared: camera and mic are announced iff their ids changed, and the stored ids become the event's; the effects are exactly those announcements, camera first, and nothing else; the speaker is never announced nor stored; nothing else changes |
| DailyMediaManager.HandleAvailableDevices | libs/daily-media-manager/src/dailyMediaManager.ts:212-227 | the three device lists are announced first; when the selected speaker's id is `default` the step continues exactly as `updateSpeaker("default")`, storing the speaker the engine then reports; otherwise nothing else happens |
| DailyMediaManager.UpdateMic | libs/daily-media-manager/src/dailyMediaManager.ts:144-149 | the only effect is the request to switch input; when the switch and the in-use query succeed, the mic reported becomes the selection; when either is rejected, nothing changes |
| DailyMediaManager.UpdateCam | libs/daily-media-manager/src/dailyMediaManager.ts:150-155 | the only effect is the request to switch camera; when the switch and the in-use query succeed, the camera reported becomes the selection; when either is rejected, nothing changes |
| DailyMediaManager.UpdateSpeaker | libs/daily-media-manager/src/dailyMediaManager.ts:156-161 | the only effect is the request to switch output; when the switch and the in-use query succeed, the speaker reported becomes the selection; when either is rejected, nothing changes |
| DailyMediaManager.UpdateThenSelectionEventReannounces | libs/daily-media-manager/src/dailyMediaManager.ts:234-241 | as written, after updating camera and mic the engine's event reporting them announces both again |
| DailyMediaManager.UpdateThenSelectionEventIsQuiet | libs/daily-media-manager/src/dailyMediaManager.ts:234-241 | with the ids compared, the same event after the same updates announces nothing and changes nothing |
| DailyMediaManager.DefaultSpeakerFollowsDeviceList | libs/daily-media-manager/src/dailyMediaManager.ts:224-226 | after an update, a device list re-selects the default output iff the engine reported the default speaker in use; a new manager has no speaker id |
| DailyMediaManager.EnableMic | libs/daily-media-manager/src/dailyMediaManager.ts:173-177 | the flag is always recorded; the engine is told only when a local participant exists |
| DailyMediaManager.EnableCam | libs/daily-media-manager/src/dailyMediaManager.ts:178-181 | the flag is recorded and the engine is always told |
| DailyMediaManager.HandleEvent | libs/daily-media-manager/src/dailyMediaManager.ts:53-70 | track starts and stops, device lists and selection changes go to their listeners, every other event only relays its notes; no event marks the manager connected, unmarks it, or stores a resolver, and only a track start can fire the resolver |
| DailyMediaManager.OtherEventsNeverSettle | libs/daily-media-manager/src/dailyMediaManager.ts:53-70 | an event other than a track start never fires the resolver |
| DailyMediaManager.Handle | libs/daily-media-manager/src/dailyMediaManager.ts:53-70 | no input other than `connect` stores a resolver or marks the manager connected |
| DailyMediaManager.StepResolvesAtMostOnce | libs/daily-media-manager/src/dailyMediaManager.ts:322-326 | one input settles the connect at most once, never without a stored resolver, and clears the resolver when it does |
| DailyMediaManager.ResolverFiresAtMostOnce | libs/daily-media-manager/src/dailyMediaManager.ts:322-326 | across any inputs between two connects the resolver fires at most once, and never if none was stored |
| DailyMediaManager.SameDeviceErrorAsTransport | libs/daily-media-manager/src/dailyMediaManager.ts:244-295 | a camera error leaves the manager unchanged and produces exactly the transport's device-error callback |
| AudioStats.FirstMatch | transports/smallwebrtc/src/util/audioLevelObserver.ts:108-113 | the position found is an audio entry of the type with none before it; none found means no entry matches |
| AudioStats.LastMatch | transports/smallwebrtc/src/util/audioLevelObserver.ts:130-134 | the position found is an audio entry of the type with none after it; none found means no entry matches |
| AudioStats.ScanFirst | transports/smallwebrtc/src/util/audioLevelObserver.ts:107-113 | the scan that stops at the first match finds the first matching entry |
| AudioStats.ScanLast | transports/smallwebrtc/src/util/audioLevelObserver.ts:129-134 | the scan that keeps overwriting finds the last matching entry |
| AudioStats.SingleMatchScansAgree | transports/smallwebrtc/src/util/audioLevelObserver.ts:106-135 | with one matching entry the first-match and last-match scans find the same one |
| AudioStats.SourceLevel | transports/smallwebrtc/src/util/audioLevelObserver.ts:107-114 | the level is that of the first `media-source` audio entry; with no such entry the level is absent, not zero |
| AudioStats.InboundLevel | transports/smallwebrtc/src/util/audioLevelObserver.ts:129-135 | the level is that of the last `inbound-rtp` audio entry; with no such entry the level is absent, not zero |
| AudioStats.SenderLevel | transports/smallwebrtc/src/util/audioLevelObserver.ts:95-115 | silence without a connection, with the mic off, or below the transceiver threshold; otherwise the statistics are read, which fails iff the read fails |
| AudioStats.ReceiverLevel | transports/smallwebrtc/src/util/audioLevelObserver.ts:117-136 | silence without a connection or transceivers, whatever the mic; otherwise the statistics are read, which fails iff the read fails |
| AudioLevelObserver.New | transports/smallwebrtc/src/util/audioLevelObserver.ts:20-31 | a new observer holds no connection and no failures |
| AudioLevelObserver.EffectiveInterval | transports/smallwebrtc/src/util/audioLevelObserver.ts:41-43 | a missing or zero interval becomes 500 ms; any other is used as given |
| AudioLevelObserver.Start | transports/smallwebrtc/src/util/audioLevelObserver.ts:33-44 | throws the already-started error iff a connection is held; otherwise stores it and starts the timer |
| AudioLevelObserver.Stop | transports/smallwebrtc/src/util/audioLevelObserver.ts:46-58 | a no-op without a connection; otherwise the observer returns to its initial state |
| AudioLevelObserver.StopIdempotent | transports/smallwebrtc/src/util/audioLevelObserver.ts:46-58 | stopping twice is stopping once |
| AudioLevelObserver.RecordFailure | transports/smallwebrtc/src/util/audioLevelObserver.ts:84-90 | a failure is counted, and the third one stops the observer with the count reset |
| AudioLevelObserver.Tick | transports/smallwebrtc/src/util/audioLevelObserver.ts:71-92 | a successful tick reports the local level and then the remote level attributed to the bot. A failing local read reports nothing. A failing remote read reports only the local level. Either failure is counted |
| AudioLevelObserver.RunTicks | transports/smallwebrtc/src/util/audioLevelObserver.ts:70-93 | ticks keep the observer's invariant: a connection exactly while the timer runs, and fewer than three failures |
| AudioLevelObserver.StoppedIgnoresTicks | transports/smallwebrtc/src/util/audioLevelObserver.ts:54-57 | once stopped, ticks change nothing |
| AudioLevelObserver.StopsAtThirdFailure | transports/smallwebrtc/src/util/audioLevelObserver.ts:82-91 | over any ticks the failures accumulate across successes; the observer runs with the count equal to the failures until they reach three, and is then stopped with the count reset |
| AudioLevelObserver.RestartResetsFailures | transports/smallwebrtc/src/util/audioLevelObserver.ts:33-58 | stop followed by start always succeeds with no failures counted |
| LocalAudioLevelObserver.New | transports/smallwebrtc/src/util/localAudioLevelObserver.ts:17-24 | a new observer is bound to its connection, not started, with no failures |
| LocalAudioLevelObserver.Start | transports/smallwebrtc/src/util/localAudioLevelObserver.ts:26-37 | throws the already-started error iff in progress; otherwise starts the timer with the same interval fallback |
| LocalAudioLevelObserver.Stop | transports/smallwebrtc/src/util/localAudioLevelObserver.ts:39-51 | a no-op unless in progress; otherwise back to the initial state on the same connection |
| LocalAudioLevelObserver.RecordFailure | transports/smallwebrtc/src/util/localAudioLevelObserver.ts:63-72 | a failure is counted, and the third one stops the observer, keeping the connection |
| LocalAudioLevelObserver.Tick | transports/smallwebrtc/src/util/localAudioLevelObserver.ts:57-75 | a successful read reports the local level; a failed one is counted; fewer than two transceivers report silence |
| LocalAudioLevelObserver.RunTicks | transports/smallwebrtc/src/util/localAudioLevelObserver.ts:57-75 | ticks keep the observer's invariant |
| LocalAudioLevelObserver.StoppedIgnoresTicks | transports/smallwebrtc/src/util/localAudioLevelObserver.ts:47-50 | once stopped, ticks change nothing |
| LocalAudioLevelObserver.StopsAtThirdFailure | transports/smallwebrtc/src/util/localAudioLevelObserver.ts:59-72 | failures accumulate across successes; the observer stops on the same connection, count reset, when they reach three |
| LocalAudioLevelObserver.RestartAfterStop | transports/smallwebrtc/src/util/localAudioLevelObserver.ts:17-51 | after any stop, including a forced one, start succeeds again on the same connection with no failures |

## Left out

- The message dispatcher and request/response correlation belong to the external client library; only its declarations exist here.
- `sendReadyMessage`: listener and promise plumbing. It registers a listener per call, with no once-guard.
- Engine calls (`join`, `leave`, `preAuth`, `startCamera`, `enumerateDevices`, `getInputDevices`, `setCamera`, `setAudioDevice`, `getStats`, `participants`): the engine's own behaviour is not modelled and its answers are inputs. A rejection is an input where the component's own bookkeeping depends on it: `join`, `startCamera`, `enumerateDevices`, `getInputDevices`, and the switch or in-use query of the device updates. A rejection of the transport's `preAuth` or `leave` reaches the caller after the bookkeeping is done, so those answers are not inputs.
- DailyTransport.InitDevices: a rejection of `startLocalAudioLevelObserver` or `startRemoteParticipantsAudioLevelObserver` is not modelled; the observers always start. Such a rejection would leave the transport `initializing` after the camera and mic announcements.
- Timers, promise scheduling and overlapping ticks: a tick is one atomic step. A `stop` racing an in-flight tick is not modelled, so a tick always sees the connection it started with. Likewise each device update is one step, so an update racing an event is not modelled.
- Callback registration: every callback is emitted as an effect. Whether the application registered it (`?.`) decides delivery outside the model. The exception is the media managers' track hooks, which are state.
- Device enumeration getters (`getAllCams`, `getAllMics`, `getAllSpeakers`): plain filters over the engine's answer, the same filter as `DevicesOfKind`.
- Transport delegations with no bookkeeping are not modelled: `enableMic`, `enableCam`, `enableScreenShare`, `isMicEnabled`, `isCamEnabled`, `isSharingScreen`, `getSessionInfo`, `dailyCallClient`, `tracks()`.
- Media-manager delegations with no bookkeeping are not modelled either: `enableScreenShare`, `isMicEnabled`, `isCamEnabled`, `isSharingScreen`, `tracks()`, and the selection getters.
- The transport's constructor creating the engine object, and the `!this._daily` guards: the engine handle always exists once constructed.
- The transport's `initialize` also stores the callbacks and the message handler and attaches the listeners. The subscription table is `DailyTransport.HandleEvent`.
- DailyTransport.InitializeIdempotent: covers the transport's bookkeeping only. Each `initialize` attaches the event listeners again (transport.ts:131, 366-396), so after two calls every engine event would be handled twice; the model keeps one subscription. Events that arrive before the first `initialize` are not delivered in the source, while `Run`, `Drive` and `BotIdTracksLastBotEvent` accept events from any state.
- The base transport's initial state is declared outside this repository, so `DailyTransport.New` takes it as a parameter.
- ConnectionParams.Validate: the source mutates the caller's object in place; the model returns the normalised copy.
- ConnectionParams.Validate: arrays are objects to `typeof` and are treated like any other object.
- Audio levels are reals passed through unchanged. NaN is not represented, so a NaN remote level counts as truthy only in the source.
- DailyMediaManager.HandleAvailableDevices: reads `deviceId` of the stored speaker without `?.`. If the engine ever reported no speaker in use, the source throws after the three callbacks; the model then simply does not re-select.
- DailyMediaManager.Connect: when initialisation fails inside `connect`, the source leaves an unhandled rejection and a promise that never settles. The model keeps the resolver stored and the manager uninitialised.
- DailyMediaManager.Handle: its contract states only that no input except `connect` stores a resolver or sets the connected flag. Each input's effects are stated by the member it dispatches to.
- The two level observers' callback setters (`onLocalAudioLevel`, `onRemoteAudioLevel`) are callback registration; reports are emitted as effects.

## Findings

| source | as written | input that shows it | evidently intended | confidence | as-written member | corrected member |
|---|---|---|---|---|---|---|
| transports/daily/src/transport.ts:439 | `this._selectedCam?.deviceId !== ev.devices.camera` compares a device id (a string or undefined) with the event's device object, so the two are strictly equal only when both are undefined | stored camera `{deviceId: "A"}`, event camera `{deviceId: "A"}`: the comparison says changed | compare the ids on both sides, so an unchanged selection is silent | medium, not executed | DeviceSelection.ReselectNotifiesAsWritten | DeviceSelection.DiffIdempotent |
| transports/daily/src/transport.ts:439-450 | the transport's selected-devices handler stores and announces every device the event carries, through the comparison above | `updateCam("A")`, `updateMic("B")`, `updateSpeaker("C")` succeed; the engine then reports exactly those devices in use; `onCamUpdated`, `onMicUpdated` and `onSpeakerUpdated` fire again for unchanged devices | announce a device only when the selection changed | medium, not executed | DailyTransport.UpdateThenSelectionEventReannounces | DailyTransport.UpdateThenSelectionEventIsQuiet |
| libs/daily-media-manager/src/dailyMediaManager.ts:234-241 | the media manager's handler has the same comparison for camera and mic | `updateCam("A")` and `updateMic("B")` succeed; the engine then reports those devices in use; `onCamUpdated` and `onMicUpdated` fire again | announce a device only when the selection changed | medium, not executed | DailyMediaManager.UpdateThenSelectionEventReannounces | DailyMediaManager.UpdateThenSelectionEventIsQuiet |

=== FILE: audio_level_observer.dfy ===
/**
 The small-WebRTC audio level observer: while started, every interval tick
 reads the local (sender) level and then the remote (receiver) level of the
 peer connection and reports both, the remote one attributed to the bot.
 Failed reads are counted, and the third failure since the last start
 stops the observer.
 */
module AudioLevelObserver {
  import opened Types
  import opened AudioStats

  /** A peer connection; only its identity matters here. */
  datatype PeerConnection = PeerConnection(handle: nat)

  /** The observer's state; `interval` is the period of the running timer, if any. */
  datatype Observer = Observer(pc: Option<PeerConnection>, failsCount: nat, interval: Option<int>)

  /** The period used when `start` is given none, or zero. */
  const DefaultIntervalMs: int := 500

  /** The number of failed reads after which the observer stops itself. */
  const MaxFailures: nat := 3

  /** The participant every remote level is attributed to. */
  const BotParticipant: Participant := Participant("bot", false, "Bot")

  /** Why `start` throws. */
  datatype StartError = AlreadyStarted(errMsg: string)

  const AlreadyStartedMessage: string :=
    "The audio level observer has already been started. Please call stop() before starting again."

  /** What the observer reports to its callbacks. */
  datatype LevelReport =
    | LocalLevel(level: Level)
    | RemoteLevel(level: Level, participant: Participant)

  /** The observer after a tick and what it reported, in order. */
  datatype Step = Step(observer: Observer, reports: seq<LevelReport>)

  /**
   The observer holds a connection exactly while its timer runs, counts no
   failures while stopped, and never reaches the limit while running.
   */
  predicate Valid(o: Observer) {
    && (o.pc.Some? <==> o.interval.Some?)
    && (o.pc.None? ==> o.failsCount == 0)
    && o.failsCount < MaxFailures
  }

  /** A new observer: no connection, no timer, no failures. */
  function New(): (o: Observer)
    ensures Valid(o) && o.pc.None? && o.failsCount == 0
  {
    Observer(None, 0, None)
  }

  /** `interval || 500`: a missing or zero period falls back to the default. */
  function EffectiveInterval(interval: Option<int>): (ms: int)
    ensures interval.Some? && interval.value != 0 ==> ms == interval.value
    ensures interval.None? || interval.value == 0 ==> ms == DefaultIntervalMs
    ensures ms != 0
  {
    if interval.None? || interval.value == 0 then DefaultIntervalMs else interval.value
  }

  /** `start`: refuses while a connection is held; otherwise stores it and starts the timer. */
  function Start(o: Observer, pc: PeerConnection, interval: Option<int>): (r: Result<Observer, StartError>)
    ensures r.Err? <==> o.pc.Some?
    ensures r.Err? ==> r.error == AlreadyStarted(AlreadyStartedMessage)
    ensures r.Ok? ==> r.value == Observer(Some(pc), o.failsCount, Some(EffectiveInterval(interval)))
    ensures Valid(o) && r.Ok? ==> Valid(r.value)
  {
    if o.pc.Some? then Err(AlreadyStarted(AlreadyStartedMessage))
    else Ok(o.(pc := Some(pc), interval := Some(EffectiveInterval(interval))))
  }

  /** `stop`: a no-op without a connection; otherwise drops it, resets the failures and clears the timer. */
  function Stop(o: Observer): (r: Observer)
    ensures o.pc.None? ==> r == o
    ensures o.pc.Some? ==> r == New()
    ensures Valid(o) ==> Valid(r)
  {
    if o.pc.None? then o else New()
  }

  /** What the environment answers during one tick. */
  datatype TickEnv = TickEnv(micEnabled: bool, transceivers: nat, senderRead: StatsRead, receiverRead: StatsRead)

  /** The local level the tick reads; the sender side needs at least one transceiver here. */
  function TickLocal(env: TickEnv): Result<Level, ReadError> {
    SenderLevel(true, env.micEnabled, env.transceivers, 1, env.senderRead)
  }

  /** The remote level the tick reads. */
  function TickRemote(env: TickEnv): Result<Level, ReadError> {
    ReceiverLevel(true, env.transceivers, env.receiverRead)
  }

  /** Whether a tick's reads throw. */
  predicate TickFails(env: TickEnv) {
    TickLocal(env).Err? || TickRemote(env).Err?
  }

  /** A failed read: count it, and stop at the limit. */
  function RecordFailure(o: Observer): (r: Observer)
    requires o.pc.Some?
    ensures o.failsCount + 1 >= MaxFailures ==> r == New()
    ensures o.failsCount + 1 < MaxFailures ==> r == o.(failsCount := o.failsCount + 1)
  {
    var counted := o.(failsCount := o.failsCount + 1);
    if counted.failsCount >= MaxFailures then Stop(counted) else counted
  }

  /**
   One timer tick. Without a running timer nothing happens. The local level
   is reported before the remote one is read, so a failing remote read still
   reports the local level; a failing local read reports nothing.
   */
  function Tick(o: Observer, env: TickEnv): (r: Step)
    requires Valid(o)
    ensures Valid(r.observer)
    ensures o.pc.None? ==> r == Step(o, [])
    ensures o.pc.Some? && !TickFails(env) ==>
      r == Step(o, [LocalLevel(TickLocal(env).value), RemoteLevel(TickRemote(env).value, BotParticipant)])
    ensures o.pc.Some? && TickLocal(env).Err? ==> r.reports == []
    ensures o.pc.Some? && TickLocal(env).Ok? && TickRemote(env).Err? ==> r.reports == [LocalLevel(TickLocal(env).value)]
    ensures o.pc.Some? && TickFails(env) ==> r.observer == RecordFailure(o)
    ensures forall i :: 0 <= i < |r.reports| && r.reports[i].RemoteLevel? ==> r.reports[i].participant == BotParticipant
  {
    if o.pc.None? then Step(o, [])
    else
      match TickLocal(env)
      case Err(_) => Step(RecordFailure(o), [])
      case Ok(local) =>
        match TickRemote(env)
        case Err(_) => Step(RecordFailure(o), [LocalLevel(local)])
        case Ok(remote) => Step(o, [LocalLevel(local), RemoteLevel(remote, BotParticipant)])
  }

  /** The observer after a sequence of ticks. */
  function RunTicks(o: Observer, envs: seq<TickEnv>): (r: Observer)
    requires Valid(o)
    ensures Valid(r)
    decreases |envs|
  {
    if envs == [] then o else RunTicks(Tick(o, envs[0]).observer, envs[1..])
  }

  /** How many of some ticks fail. */
  function FailedTicks(envs: seq<TickEnv>): nat
    decreases |envs|
  {
    if envs == [] then 0 else (if TickFails(envs[0]) then 1 else 0) + FailedTicks(envs[1..])
  }

  /** A stopped observer ignores ticks. */
  lemma {:induction false} StoppedIgnoresTicks(o: Observer, envs: seq<TickEnv>)
    requires Valid(o) && o.pc.None?
    ensures RunTicks(o, envs) == o
    decreases |envs|
  {
    if envs != [] {
      StoppedIgnoresTicks(o, envs[1..]);
    }
  }

  /**
   Failures accumulate whether or not successful ticks come between them:
   a running observer keeps running, with every failure counted, until the
   total reaches the limit, and is then stopped with its count reset.
   */
  lemma {:induction false} StopsAtThirdFailure(o: Observer, envs: seq<TickEnv>)
    requires Valid(o) && o.pc.Some? && o.failsCount < MaxFailures
    ensures var total := o.failsCount + FailedTicks(envs);
      && (total < MaxFailures ==> RunTicks(o, envs) == o.(failsCount := total))
      && (total >= MaxFailures ==> RunTicks(o, envs) == New())
    decreases |envs|
  {
    if envs != [] {
      var next := Tick(o, envs[0]).observer;
      if next.pc.Some? {
        StopsAtThirdFailure(next, envs[1..]);
      } else {
        StoppedIgnoresTicks(next, envs[1..]);
      }
    }
  }

  /** Stopping twice is stopping once. */
  lemma StopIdempotent(o: Observer)
    ensures Stop(Stop(o)) == Stop(o)
  {
  }

  /** Stopping and starting again gives a fresh count whatever came before. */
  lemma RestartResetsFailures(o: Observer, pc: PeerConnection, interval: Option<int>)
    requires Valid(o)
    ensures Start(Stop(o), pc, interval) == Ok(Observer(Some(pc), 0, Some(EffectiveInterval(interval))))
  {
  }
}

=== FILE: audio_stats.dfy ===
/**
 Reading an audio level out of a WebRTC statistics report, as both
 small-WebRTC level observers do: the sender side takes the first
 `media-source` audio report, the receiver side the last `inbound-rtp`
 audio report, and a missing report or level reads as `undefined`.
 */
module AudioStats {
  import opened Types

  /** One entry of a statistics report; `audioLevel` is absent on most entries. */
  datatype Report = Report(reportType: string, kind: string, audioLevel: Option<real>)

  const MediaSourceType: string := "media-source"
  const InboundRtpType: string := "inbound-rtp"

  /** An audio entry of the given report type. */
  predicate IsAudioOf(report: Report, reportType: string) {
    report.reportType == reportType && report.kind == AudioKind
  }

  /** The position of the first audio entry of the given type. */
  function FirstMatch(reports: seq<Report>, reportType: string): (r: Option<nat>)
    ensures r.Some? ==> r.value < |reports| && IsAudioOf(reports[r.value], reportType)
    ensures r.Some? ==> forall j :: 0 <= j < r.value ==> !IsAudioOf(reports[j], reportType)
    ensures r.None? ==> forall j :: 0 <= j < |reports| ==> !IsAudioOf(reports[j], reportType)
    decreases |reports|
  {
    if reports == [] then None
    else if IsAudioOf(reports[0], reportType) then Some(0)
    else
      match FirstMatch(reports[1..], reportType)
      case None => None
      case Some(i) => Some(i + 1)
  }

  /** The position of the last audio entry of the given type. */
  function LastMatch(reports: seq<Report>, reportType: string): (r: Option<nat>)
    ensures r.Some? ==> r.value < |reports| && IsAudioOf(reports[r.value], reportType)
    ensures r.Some? ==> forall j :: r.value < j < |reports| ==> !IsAudioOf(reports[j], reportType)
    ensures r.None? ==> forall j :: 0 <= j < |reports| ==> !IsAudioOf(reports[j], reportType)
    decreases |reports|
  {
    if reports == [] then None
    else if IsAudioOf(reports[|reports| - 1], reportType) then Some(|reports| - 1)
    else LastMatch(reports[..|reports| - 1], reportType)
  }

  /** The sender-side scan: walk the entries and stop at the first match. */
  method ScanFirst(reports: seq<Report>, reportType: string) returns (found: Option<nat>)
    ensures found == FirstMatch(reports, reportType)
  {
    found := None;
    var i := 0;
    while i < |reports|
      invariant 0 <= i <= |reports|
      invariant found.None?
      invariant forall j :: 0 <= j < i ==> !IsAudioOf(reports[j], reportType)
    {
      if IsAudioOf(reports[i], reportType) {
        found := Some(i);
        return;
      }
      i := i + 1;
    }
  }

  /** The receiver-side scan: walk every entry, keeping the latest match. */
  method ScanLast(reports: seq<Report>, reportType: string) returns (found: Option<nat>)
    ensures found == LastMatch(reports, reportType)
  {
    found := None;
    var i := 0;
    while i < |reports|
      invariant 0 <= i <= |reports|
      invariant found == LastMatch(reports[..i], reportType)
    {
      assert reports[..i + 1][..i] == reports[..i];
      if IsAudioOf(reports[i], reportType) {
        found := Some(i);
      }
      i := i + 1;
    }
    assert reports[..|reports|] == reports;
  }

  /** With a single matching entry the two scans agree. */
  lemma SingleMatchScansAgree(reports: seq<Report>, reportType: string, i: nat)
    requires i < |reports| && IsAudioOf(reports[i], reportType)
    requires forall j :: 0 <= j < |reports| && j != i ==> !IsAudioOf(reports[j], reportType)
    ensures FirstMatch(reports, reportType) == LastMatch(reports, reportType) == Some(i)
  {
  }

  /** What an observer reads from one `getStats` call; it may throw. */
  datatype StatsRead = ReadFailed | ReadOk(reports: seq<Report>)

  /** A failed statistics read. */
  datatype ReadError = StatsUnavailable

  /** A level as handed to the callback: `None` is `undefined`. */
  type Level = Option<real>

  /** The level reported when nothing is sent or received. */
  const Silence: Level := Some(0.0)

  /** `audioSourceStats?.audioLevel` after the sender-side scan: the level of the first `media-source` audio entry. */
  function SourceLevel(reports: seq<Report>): (r: Level)
    ensures r.Some? ==> exists i :: 0 <= i < |reports| && IsAudioOf(reports[i], MediaSourceType) && reports[i].audioLevel == r
    ensures (forall j :: 0 <= j < |reports| ==> !IsAudioOf(reports[j], MediaSourceType)) ==> r.None?
    ensures forall i ::
      (0 <= i < |reports| && IsAudioOf(reports[i], MediaSourceType) && (forall j :: 0 <= j < i ==> !IsAudioOf(reports[j], MediaSourceType)))
      ==> r == reports[i].audioLevel
  {
    match FirstMatch(reports, MediaSourceType)
    case None => None
    case Some(i) => reports[i].audioLevel
  }

  /** `inboundAudioStats?.audioLevel` after the receiver-side scan: the level of the last `inbound-rtp` audio entry. */
  function InboundLevel(reports: seq<Report>): (r: Level)
    ensures r.Some? ==> exists i :: 0 <= i < |reports| && IsAudioOf(reports[i], InboundRtpType) && reports[i].audioLevel == r
    ensures (forall j :: 0 <= j < |reports| ==> !IsAudioOf(reports[j], InboundRtpType)) ==> r.None?
    ensures forall i ::
      (0 <= i < |reports| && IsAudioOf(reports[i], InboundRtpType) && (forall j :: i < j < |reports| ==> !IsAudioOf(reports[j], InboundRtpType)))
      ==> r == reports[i].audioLevel
  {
    match LastMatch(reports, InboundRtpType)
    case None => None
    case Some(i) => reports[i].audioLevel
  }

  /**
   The sender-side level: silence when there is no connection, the
   microphone is off, or there are fewer transceivers than `minTransceivers`;
   otherwise the first transceiver's sender statistics are read.
   */
  function SenderLevel(pcPresent: bool, micEnabled: bool, transceivers: nat, minTransceivers: nat, read: StatsRead)
    : (r: Result<Level, ReadError>)
    ensures r.Err? <==> pcPresent && micEnabled && transceivers >= minTransceivers && read.ReadFailed?
    ensures !pcPresent || !micEnabled || transceivers < minTransceivers ==> r == Ok(Silence)
    ensures pcPresent && micEnabled && transceivers >= minTransceivers && read.ReadOk? ==> r == Ok(SourceLevel(read.reports))
  {
    if !pcPresent || !micEnabled then Ok(Silence)
    else if transceivers < minTransceivers then Ok(Silence)
    else
      match read
      case ReadFailed => Err(StatsUnavailable)
      case ReadOk(reports) => Ok(SourceLevel(reports))
  }

  /**
   The receiver-side level: silence without a connection or transceivers;
   otherwise the first transceiver's receiver statistics are read. The
   microphone plays no part.
   */
  function ReceiverLevel(pcPresent: bool, transceivers: nat, read: StatsRead): (r: Result<Level, ReadError>)
    ensures r.Err? <==> pcPresent && transceivers >= 1 && read.ReadFailed?
    ensures !pcPresent || transceivers == 0 ==> r == Ok(Silence)
    ensures pcPresent && transceivers >= 1 && read.ReadOk? ==> r == Ok(InboundLevel(read.reports))
  {
    if !pcPresent then Ok(Silence)
    else if transceivers < 1 then Ok(Silence)
    else
      match read
      case ReadFailed => Err(StatsUnavailable)
      case ReadOk(reports) => Ok(InboundLevel(reports))
  }
}

=== FILE: call_wrapper.dfy ===
/**
 The guarded engine handle the Daily transport exposes to applications:
 every property and method is forwarded, except the five methods that would
 change the call's lifecycle behind the transport's back, which read as
 functions that throw when called.
 */
module CallWrapper {

  /** The lifecycle methods an application may not call on the exposed handle. */
  const Denylist: set<string> := {"preAuth", "startCamera", "join", "leave", "destroy"}

  /**
   What reading a property of the exposed handle yields: the engine's own
   value, or, for a blocked method, a replacement function that throws
   `errMsg` when it is called. The read itself never throws.
   */
  datatype Access =
    | Forwarded
    | ThrowingFunction(errMsg: string)

  /** The first sentence of every blocked method's error. */
  function Disabled(name: string): (r: string)
    ensures |r| > |name|
  {
    "Calls to " + name + "() are disabled."
  }

  /** The error a blocked method throws, pointing at the client operation to use instead. */
  function BlockedMessage(prop: string): string {
    match prop
    case "preAuth" => Disabled(prop) + " Please use Transport.preAuth()"
    case "startCamera" => Disabled(prop) + " Please use PipecatClient.initDevices()"
    case "join" => Disabled(prop) + " Please use PipecatClient.connect()"
    case "leave" => Disabled(prop) + " Please use PipecatClient.disconnect()"
    case "destroy" => Disabled(prop)
    case _ => ""
  }

  /**
   The proxy's `get` trap. `isFunction` says whether the engine's property
   is a method; plain properties are always forwarded.
   */
  function Get(prop: string, isFunction: bool): (r: Access)
    ensures r.ThrowingFunction? <==> isFunction && prop in Denylist
    ensures r.ThrowingFunction? ==> r.errMsg != ""
    ensures r.ThrowingFunction? ==> r.errMsg == BlockedMessage(prop) && Disabled(prop) <= r.errMsg
  {
    if isFunction && BlockedMessage(prop) != "" then ThrowingFunction(BlockedMessage(prop)) else Forwarded
  }
}

=== FILE: connection_params.dfy ===
/**
 Normalisation of the connection parameters handed to the Daily transport's
 connect: legacy field names for the room URL and the token are folded into
 `url` and `token`, and a falsy token is dropped, because the engine rejects
 a token key that is present but empty.
 */
module ConnectionParams {
  import opened Types

  const UrlKey: string := "url"
  const TokenKey: string := "token"
  const RoomUrlKey: string := "room_url"
  const DailyRoomKey: string := "dailyRoom"
  const DailyTokenKey: string := "dailyToken"

  /** The keys the normaliser reads or writes. */
  const TouchedKeys: set<string> := {UrlKey, TokenKey, RoomUrlKey, DailyRoomKey, DailyTokenKey}

  /** The error raised for parameters that are not an object. */
  datatype ParamsError = InvalidConnectionParameters

  /** Moves `alias` onto `target`, removing the alias. */
  function MoveKey(m: map<string, Value>, alias: string, target: string): (r: map<string, Value>)
    requires alias in m && alias != target
    ensures r.Keys == m.Keys - {alias} + {target}
    ensures r[target] == m[alias]
    ensures forall k :: k in m && k != alias && k != target ==> r[k] == m[k]
  {
    m[target := m[alias]] - {alias}
  }

  /** Folds the room-URL aliases: a truthy `room_url` wins over a truthy `dailyRoom`. */
  function FoldUrl(m: map<string, Value>): map<string, Value> {
    if Truthy(Get(m, RoomUrlKey)) then MoveKey(m, RoomUrlKey, UrlKey)
    else if Truthy(Get(m, DailyRoomKey)) then MoveKey(m, DailyRoomKey, UrlKey)
    else m
  }

  /** Folds the token alias. */
  function FoldToken(m: map<string, Value>): map<string, Value> {
    if Truthy(Get(m, DailyTokenKey)) then MoveKey(m, DailyTokenKey, TokenKey) else m
  }

  /** Drops a falsy token. */
  function DropFalsyToken(m: map<string, Value>): map<string, Value> {
    if Truthy(Get(m, TokenKey)) then m else m - {TokenKey}
  }

  /** The room URL the engine will join, chosen among the aliases. */
  function ChosenUrl(m: map<string, Value>): Value {
    if Truthy(Get(m, RoomUrlKey)) then m[RoomUrlKey]
    else if Truthy(Get(m, DailyRoomKey)) then m[DailyRoomKey]
    else Get(m, UrlKey)
  }

  /** The token before falsy tokens are dropped. */
  function ChosenToken(m: map<string, Value>): Value {
    if Truthy(Get(m, DailyTokenKey)) then m[DailyTokenKey] else Get(m, TokenKey)
  }

  /** The alias folding applied to an object's fields. */
  function Normalize(m: map<string, Value>): (r: map<string, Value>)
    // url: the first truthy alias overwrites it; otherwise it is left as it was
    ensures Get(r, UrlKey) == ChosenUrl(m)
    // a used alias is removed; an unused one is left in place
    ensures Truthy(Get(m, RoomUrlKey)) ==> RoomUrlKey !in r && Get(r, DailyRoomKey) == Get(m, DailyRoomKey)
    ensures !Truthy(Get(m, RoomUrlKey)) ==> Get(r, RoomUrlKey) == Get(m, RoomUrlKey) && (RoomUrlKey in r <==> RoomUrlKey in m)
    ensures !Truthy(Get(m, RoomUrlKey)) && Truthy(Get(m, DailyRoomKey)) ==> DailyRoomKey !in r
    ensures Truthy(Get(m, DailyTokenKey)) <==> DailyTokenKey !in r && DailyTokenKey in m
    ensures !Truthy(Get(m, DailyTokenKey)) ==> Get(r, DailyTokenKey) == Get(m, DailyTokenKey)
    // token: present only when truthy, and then the chosen one
    ensures TokenKey in r <==> Truthy(ChosenToken(m))
    ensures TokenKey in r ==> r[TokenKey] == ChosenToken(m)
    // every other key is untouched
    ensures forall k :: k !in TouchedKeys ==> (k in r <==> k in m)
    ensures forall k :: k !in TouchedKeys && k in m ==> r[k] == m[k]
  {
    DropFalsyToken(FoldToken(FoldUrl(m)))
  }

  /**
   `_validateConnectionParams`: absent parameters stay absent, a non-object
   is rejected, and an object is normalised.
   */
  function Validate(params: Value): (r: Result<Option<map<string, Value>>, ParamsError>)
    ensures Nullish(params) <==> r == Ok(None)
    ensures r.Err? <==> !Nullish(params) && !params.Obj?
    ensures params.Obj? ==> r == Ok(Some(Normalize(params.fields)))
  {
    if Nullish(params) then Ok(None)
    else if !params.Obj? then Err(InvalidConnectionParameters)
    else Ok(Some(Normalize(params.fields)))
  }

  /** `{room_url: "https://x/y", dailyToken: "abc"}` becomes `{url: "https://x/y", token: "abc"}`. */
  lemma LegacyAliasesExample()
    ensures Validate(Obj(map[RoomUrlKey := Str("https://x/y"), DailyTokenKey := Str("abc")]))
         == Ok(Some(map[UrlKey := Str("https://x/y"), TokenKey := Str("abc")]))
  {
    var m := map[RoomUrlKey := Str("https://x/y"), DailyTokenKey := Str("abc")];
    var expected := map[UrlKey := Str("https://x/y"), TokenKey := Str("abc")];
    var r := Normalize(m);
    assert Truthy(Get(m, RoomUrlKey)) && Truthy(Get(m, DailyTokenKey));
    assert forall k :: k in r ==> k in TouchedKeys;
    assert r.Keys == expected.Keys;
    assert r[UrlKey] == expected[UrlKey] && r[TokenKey] == expected[TokenKey];
    assert r == expected;
  }

  /** A truthy legacy room URL overwrites an explicit `url`: the alias, not the canonical field, wins. */
  lemma AliasOverridesCanonicalUrl(m: map<string, Value>)
    requires Truthy(Get(m, RoomUrlKey)) && UrlKey in m
    ensures Normalize(m)[UrlKey] == m[RoomUrlKey]
  {
  }

  /**
   Normalising twice changes nothing more, provided the two room aliases are
   not both truthy; when they are, the first pass keeps `dailyRoom` and a
   second pass would move it onto `url`.
   */
  lemma NormalizeIdempotent(m: map<string, Value>)
    requires !(Truthy(Get(m, RoomUrlKey)) && Truthy(Get(m, DailyRoomKey)))
    ensures Normalize(Normalize(m)) == Normalize(m)
  {
    var r := Normalize(m);
    var r2 := Normalize(r);
    assert !Truthy(Get(r, RoomUrlKey)) && !Truthy(Get(r, DailyRoomKey));
    assert !Truthy(Get(r, DailyTokenKey));
    assert r2.Keys == r.Keys;
  }

  /** Both room aliases truthy: a second pass is not a no-op. */
  lemma NormalizeNotIdempotentWithBothAliases()
    ensures var m := map[RoomUrlKey := Str("a"), DailyRoomKey := Str("b")];
            Normalize(Normalize(m)) != Normalize(m)
  {
    var m := map[RoomUrlKey := Str("a"), DailyRoomKey := Str("b")];
    assert Get(Normalize(m), UrlKey) == Str("a");
    assert Get(Normalize(Normalize(m)), UrlKey) == Str("b");
  }
}

=== FILE: daily_media_manager.dfy ===
/**
 The Daily media manager used by the small-WebRTC transport: local devices
 through the Daily engine, the initialised/connected flags, and the pending
 connect, which settles when the first local audio track starts.
 */
module DailyMediaManager {
  import opened Types
  import opened DeviceErrors
  import opened DeviceSelection
  import opened Notifications
  import opened EngineEvents
  import MM = MediaManager

  /** The manager's bookkeeping; `connectPending` says a connect resolver is stored. */
  datatype Manager = Manager(
    base: MM.Manager,
    initialized: bool,
    connected: bool,
    connectPending: bool,
    selectedCam: DeviceValue,
    selectedMic: DeviceValue,
    selectedSpeaker: DeviceValue)

  /** The manager after a step, with the step's effects in order. */
  datatype Step = Step(manager: Manager, effects: seq<Effect>)

  /** Whether the promise a `connect` returns is already settled or waits for the resolver. */
  datatype ConnectPromise = Settled | Pending

  /** A new manager: not initialised, not connected, screen sharing supported, the given hooks installed. */
  function New(onStarted: Option<MM.TrackHook>, onStopped: Option<MM.TrackHook>): (d: Manager)
    ensures !d.initialized && !d.connected && !d.connectPending
    ensures d.base.supportsScreenShare && d.base.micEnabled && !d.base.camEnabled
    ensures d.base.onTrackStarted == onStarted && d.base.onTrackStopped == onStopped
  {
    var base := MM.New().(supportsScreenShare := true, onTrackStarted := onStarted, onTrackStopped := onStopped);
    Manager(base, false, false, false, EmptySelection, EmptySelection, EmptySelection)
  }

  /**
   The engine's answers while the manager initialises: `startCamera`,
   `enumerateDevices` or `getInputDevices` may reject, and otherwise the
   devices and the devices in use.
   */
  datatype InitOutcome =
    | CameraStartFailed
    | EnumerateFailed
    | InputDevicesFailed(devices: seq<MediaDevice>)
    | InitReady(devices: seq<MediaDevice>, camera: DeviceValue, mic: DeviceValue)

  /** The device lists never settle a connect. */
  lemma ListsNeverSettle(devices: seq<MediaDevice>)
    ensures Notify(ConnectResolved) !in Notifies(AvailableDevicesNotes(devices))
  {
    var notes := AvailableDevicesNotes(devices);
    assert ConnectResolved !in notes by {
      assert notes == [notes[0], notes[1], notes[2]];
    }
  }

  /**
   The devices are ready: after the camera start, the available cameras,
   microphones and speakers are announced, the camera and microphone in use
   are stored and announced, and the manager is initialised.
   */
  function InitReadyStep(d: Manager, devices: seq<MediaDevice>, camera: DeviceValue, mic: DeviceValue): (r: Step)
    ensures r.manager == d.(selectedCam := camera, selectedMic := mic, initialized := true)
    ensures r.effects ==
      [Call(StartCamera(!d.base.camEnabled, !d.base.micEnabled))]
      + Notifies(AvailableDevicesNotes(devices))
      + [Notify(CamUpdated(camera)), Notify(MicUpdated(mic))]
  {
    Step(d.(selectedCam := camera, selectedMic := mic, initialized := true),
         [Call(StartCamera(!d.base.camEnabled, !d.base.micEnabled))]
         + Notifies(AvailableDevicesNotes(devices))
         + [Notify(CamUpdated(camera)), Notify(MicUpdated(mic))])
  }

  /**
   `initialize`: a no-op once initialised. Otherwise the camera is started
   with the stored mic and camera flags and the manager goes on as
   `InitReadyStep` says. A rejection by the engine stops it where it
   happens, uninitialised: after the camera start, or after announcing the
   available devices when the query for the devices in use fails.
   */
  function Initialize(d: Manager, outcome: InitOutcome): (r: Step)
    ensures d.initialized ==> r == Step(d, [])
    ensures !d.initialized ==> |r.effects| >= 1
    ensures !d.initialized ==> r.effects[0] == Call(StartCamera(!d.base.camEnabled, !d.base.micEnabled))
    ensures r.manager.initialized <==> d.initialized || outcome.InitReady?
    ensures !d.initialized && (outcome.CameraStartFailed? || outcome.EnumerateFailed?) ==>
      r == Step(d, [Call(StartCamera(!d.base.camEnabled, !d.base.micEnabled))])
    ensures !d.initialized && outcome.InputDevicesFailed? ==>
      r == Step(d, [Call(StartCamera(!d.base.camEnabled, !d.base.micEnabled))]
                   + Notifies(AvailableDevicesNotes(outcome.devices)))
    ensures !d.initialized && outcome.InitReady? ==>
      r == InitReadyStep(d, outcome.devices, outcome.camera, outcome.mic)
    ensures r.manager.connected == d.connected && r.manager.connectPending == d.connectPending
    ensures r.manager.base == d.base
  {
    if d.initialized then Step(d, [])
    else
      var start := [Call(StartCamera(!d.base.camEnabled, !d.base.micEnabled))];
      match outcome
      case CameraStartFailed => Step(d, start)
      case EnumerateFailed => Step(d, start)
      case InputDevicesFailed(devices) => Step(d, start + Notifies(AvailableDevicesNotes(devices)))
      case InitReady(devices, camera, mic) => InitReadyStep(d, devices, camera, mic)
  }

  /**
   `connect`: a no-op once connected. Otherwise the manager is marked
   connected; if it is not yet initialised, a resolver is stored and
   initialisation starts, and the returned promise waits for the resolver.
   */
  function Connect(d: Manager, outcome: InitOutcome): (r: (Step, ConnectPromise))
    ensures d.connected ==> r == (Step(d, []), Settled)
    ensures !d.connected ==> r.0.manager.connected
    ensures !d.connected && d.initialized ==> r == (Step(d.(connected := true), []), Settled)
    ensures !d.connected && !d.initialized ==>
      r.1 == Pending && r.0.manager.connectPending
      && r.0 == Initialize(d.(connected := true, connectPending := true), outcome)
  {
    if d.connected then (Step(d, []), Settled)
    else
      var c := d.(connected := true);
      if c.initialized then (Step(c, []), Settled)
      else (Initialize(c.(connectPending := true), outcome), Pending)
  }

  /**
   `disconnect`: stop the engine's level observers and leave; once the leave
   completes, the manager is neither initialised nor connected. A failed
   leave leaves the flags as they were.
   */
  function Disconnect(d: Manager, leaveSucceeded: bool): (r: Step)
    ensures r.effects == [Call(StopLocalAudioLevelObserver), Call(StopRemoteParticipantsAudioLevelObserver), Call(Leave)]
    ensures leaveSucceeded ==> r.manager == d.(initialized := false, connected := false)
    ensures !leaveSucceeded ==> r.manager == d
    ensures r.manager.connectPending == d.connectPending
  {
    var calls := [Call(StopLocalAudioLevelObserver), Call(StopRemoteParticipantsAudioLevelObserver), Call(Leave)];
    if leaveSucceeded then Step(d.(initialized := false, connected := false), calls) else Step(d, calls)
  }

  /** A track event of the local participant; all others are ignored. */
  predicate IsLocalTrack(te: TrackEvent) {
    te.participant.Some? && te.participant.value.local
  }

  /**
   `handleTrackStarted`: only local tracks count. A local audio track
   settles a pending connect, once; then the track callback and the track
   hook fire.
   */
  function HandleTrackStarted(d: Manager, te: TrackEvent): (r: Step)
    ensures !IsLocalTrack(te) ==> r == Step(d, [])
    ensures IsLocalTrack(te) ==>
      (Notify(ConnectResolved) in r.effects <==> d.connectPending && te.track.kind == AudioKind)
    ensures IsLocalTrack(te) && te.track.kind == AudioKind ==> !r.manager.connectPending
    ensures r.manager.connectPending ==> d.connectPending
    ensures IsLocalTrack(te) ==>
      Notify(TrackStarted(te.track, Some(ToParticipant(te.participant.value)))) in r.effects
    ensures IsLocalTrack(te) ==>
      (Notify(TrackStartedHook(te)) in r.effects <==> d.base.onTrackStarted.Some?)
    ensures r.manager == d.(connectPending := r.manager.connectPending)
    ensures IsLocalTrack(te) ==>
      r.effects == (if te.track.kind == AudioKind && d.connectPending then [Notify(ConnectResolved)] else [])
                   + [Notify(TrackStarted(te.track, Some(ToParticipant(te.participant.value))))]
                   + (if d.base.onTrackStarted.Some? then [Notify(TrackStartedHook(te))] else [])
  {
    if !IsLocalTrack(te) then Step(d, [])
    else
      var resolves := te.track.kind == AudioKind && d.connectPending;
      var settle := if resolves then [Notify(ConnectResolved)] else [];
      var d' := if resolves then d.(connectPending := false) else d;
      var hook := if d.base.onTrackStarted.Some? then [Notify(TrackStartedHook(te))] else [];
      Step(d', settle + [Notify(TrackStarted(te.track, Some(ToParticipant(te.participant.value))))] + hook)
  }

  /** `handleTrackStopped`: only local tracks count; the track callback and the track hook fire. */
  function HandleTrackStopped(d: Manager, te: TrackEvent): (r: Step)
    ensures r.manager == d
    ensures !IsLocalTrack(te) ==> r.effects == []
    ensures IsLocalTrack(te) ==>
      |r.effects| >= 1 && r.effects[0] == Notify(TrackStopped(te.track, Some(ToParticipant(te.participant.value))))
    ensures IsLocalTrack(te) ==>
      (Notify(TrackStoppedHook(te)) in r.effects <==> d.base.onTrackStopped.Some?)
    ensures IsLocalTrack(te) ==>
      r.effects == [Notify(TrackStopped(te.track, Some(ToParticipant(te.participant.value))))]
                   + (if d.base.onTrackStopped.Some? then [Notify(TrackStoppedHook(te))] else [])
    ensures Notify(ConnectResolved) !in r.effects
  {
    if !IsLocalTrack(te) then Step(d, [])
    else
      var hook := if d.base.onTrackStopped.Some? then [Notify(TrackStoppedHook(te))] else [];
      Step(d, [Notify(TrackStopped(te.track, Some(ToParticipant(te.participant.value))))] + hook)
  }

  /**
   `_handleSelectedDevicesUpdated` as written: the camera and the microphone
   are stored and announced whenever the as-written comparison says
   changed, so every device the event carries is announced again; the
   speaker is not looked at.
   */
  function HandleSelectedDevices(d: Manager, camera: DeviceValue, mic: DeviceValue, speaker: DeviceValue): (r: Step)
    ensures Notify(CamUpdated(camera)) in r.effects <==> ChangedAsWritten(d.selectedCam, camera)
    ensures Notify(MicUpdated(mic)) in r.effects <==> ChangedAsWritten(d.selectedMic, mic)
    ensures camera != NoDevice && mic != NoDevice ==>
      r == Step(d.(selectedCam := camera, selectedMic := mic), [Notify(CamUpdated(camera)), Notify(MicUpdated(mic))])
    ensures r.effects == (if ChangedAsWritten(d.selectedCam, camera) then [Notify(CamUpdated(camera))] else [])
                         + (if ChangedAsWritten(d.selectedMic, mic) then [Notify(MicUpdated(mic))] else [])
    ensures forall i :: 0 <= i < |r.effects| ==> !(r.effects[i].Notify? && r.effects[i].note.SpeakerUpdated?)
    ensures r.manager.selectedSpeaker == d.selectedSpeaker
    ensures ChangedAsWritten(d.selectedCam, camera) ==> r.manager.selectedCam == camera
    ensures !ChangedAsWritten(d.selectedCam, camera) ==> r.manager.selectedCam == d.selectedCam
    ensures ChangedAsWritten(d.selectedMic, mic) ==> r.manager.selectedMic == mic
    ensures !ChangedAsWritten(d.selectedMic, mic) ==> r.manager.selectedMic == d.selectedMic
    ensures r.manager == d.(selectedCam := r.manager.selectedCam, selectedMic := r.manager.selectedMic)
  {
    var (cam, camNote) := DiffAsWritten(d.selectedCam, camera);
    var (m, micNote) := DiffAsWritten(d.selectedMic, mic);
    var notes :=
      (if camNote.Some? then [Notify(CamUpdated(camera))] else [])
      + (if micNote.Some? then [Notify(MicUpdated(mic))] else []);
    Step(d.(selectedCam := cam, selectedMic := m), notes)
  }

  /**
   The selected-devices handler with the comparison corrected to compare
   ids: the camera and the microphone are stored and announced only when
   they changed.
   */
  function HandleSelectedDevicesCorrected(d: Manager, camera: DeviceValue, mic: DeviceValue, speaker: DeviceValue): (r: Step)
    ensures Notify(CamUpdated(camera)) in r.effects <==> Changed(d.selectedCam, camera)
    ensures Notify(MicUpdated(mic)) in r.effects <==> Changed(d.selectedMic, mic)
    ensures r.effects == (if Changed(d.selectedCam, camera) then [Notify(CamUpdated(camera))] else [])
                         + (if Changed(d.selectedMic, mic) then [Notify(MicUpdated(mic))] else [])
    ensures forall i :: 0 <= i < |r.effects| ==> !(r.effects[i].Notify? && r.effects[i].note.SpeakerUpdated?)
    ensures r.manager.selectedSpeaker == d.selectedSpeaker
    ensures IdOf(r.manager.selectedCam) == IdOf(camera) && IdOf(r.manager.selectedMic) == IdOf(mic)
    ensures r.manager == d.(selectedCam := r.manager.selectedCam, selectedMic := r.manager.selectedMic)
  {
    var (cam, camNote) := Diff(d.selectedCam, camera);
    var (m, micNote) := Diff(d.selectedMic, mic);
    var notes :=
      (if camNote.Some? then [Notify(CamUpdated(camera))] else [])
      + (if micNote.Some? then [Notify(MicUpdated(mic))] else []);
    Step(d.(selectedCam := cam, selectedMic := m), notes)
  }

  /** The device id the engine uses for the system default output. */
  const DefaultDeviceId: string := "default"

  /**
   `_handleAvailableDevicesUpdated`: announce cameras, microphones and
   speakers, and re-select the default speaker when it is the one in use,
   through `updateSpeaker`, whose engine answer is `speakerInUse`.
   */
  function HandleAvailableDevices(d: Manager, available: seq<MediaDevice>, speakerInUse: Option<DeviceValue>): (r: Step)
    ensures |r.effects| >= 3
    ensures r.effects[..3] == Notifies(AvailableDevicesNotes(available))
    ensures Call(SetAudioDevice(DefaultDeviceId)) in r.effects <==> IdOf(d.selectedSpeaker) == Some(DefaultDeviceId)
    ensures IdOf(d.selectedSpeaker) == Some(DefaultDeviceId) ==>
      r == Step(UpdateSpeaker(d, DefaultDeviceId, speakerInUse).manager,
                Notifies(AvailableDevicesNotes(available)) + UpdateSpeaker(d, DefaultDeviceId, speakerInUse).effects)
    ensures IdOf(d.selectedSpeaker) != Some(DefaultDeviceId) ==> r == Step(d, Notifies(AvailableDevicesNotes(available)))
  {
    var notes := Notifies(AvailableDevicesNotes(available));
    assert |notes| == 3;
    if IdOf(d.selectedSpeaker) == Some(DefaultDeviceId) then
      var u := UpdateSpeaker(d, DefaultDeviceId, speakerInUse);
      assert (notes + u.effects)[..3] == notes;
      Step(u.manager, notes + u.effects)
    else
      assert Call(SetAudioDevice(DefaultDeviceId)) !in notes;
      Step(d, notes)
  }

  /**
   `updateMic`: the engine is asked to switch the input. When the switch
   and the following query for the devices in use both succeed, the
   microphone reported in use (`inUse`) becomes the selection; when either
   is rejected (`None`) the selection stays as it was.
   */
  function UpdateMic(d: Manager, micId: string, inUse: Option<DeviceValue>): (r: Step)
    ensures r.effects == [Call(SetAudioDevice(micId))]
    ensures inUse.Some? ==> r.manager == d.(selectedMic := inUse.value)
    ensures inUse.None? ==> r.manager == d
  {
    match inUse
    case Some(device) => Step(d.(selectedMic := device), [Call(SetAudioDevice(micId))])
    case None => Step(d, [Call(SetAudioDevice(micId))])
  }

  /** `updateCam`: as `updateMic`, for the camera. */
  function UpdateCam(d: Manager, camId: string, inUse: Option<DeviceValue>): (r: Step)
    ensures r.effects == [Call(SetCamera(camId))]
    ensures inUse.Some? ==> r.manager == d.(selectedCam := inUse.value)
    ensures inUse.None? ==> r.manager == d
  {
    match inUse
    case Some(device) => Step(d.(selectedCam := device), [Call(SetCamera(camId))])
    case None => Step(d, [Call(SetCamera(camId))])
  }

  /**
   `updateSpeaker`: as `updateMic`, for the output. It runs on the
   application's request and when a device list finds the default output in
   use; nothing else changes the speaker selection.
   */
  function UpdateSpeaker(d: Manager, speakerId: string, inUse: Option<DeviceValue>): (r: Step)
    ensures r.effects == [Call(SetAudioDevice(speakerId))]
    ensures inUse.Some? ==> r.manager == d.(selectedSpeaker := inUse.value)
    ensures inUse.None? ==> r.manager == d
  {
    match inUse
    case Some(device) => Step(d.(selectedSpeaker := device), [Call(SetAudioDevice(speakerId))])
    case None => Step(d, [Call(SetAudioDevice(speakerId))])
  }

  /**
   As written, after two successful updates the engine's selected-devices
   event for the very camera and microphone now in use announces both again.
   */
  lemma UpdateThenSelectionEventReannounces(d: Manager, camId: string, micId: string, camera: DeviceValue, mic: DeviceValue,
                                            speaker: DeviceValue)
    requires camera != NoDevice && mic != NoDevice
    ensures var u := UpdateMic(UpdateCam(d, camId, Some(camera)).manager, micId, Some(mic)).manager;
      var r := HandleSelectedDevices(u, camera, mic, speaker);
      r.effects == [Notify(CamUpdated(camera)), Notify(MicUpdated(mic))] && r.manager == u
  {
  }

  /**
   With the corrected comparison, the same event after the same updates
   announces nothing and leaves the selection as the updates stored it.
   */
  lemma UpdateThenSelectionEventIsQuiet(d: Manager, camId: string, micId: string, camera: DeviceValue, mic: DeviceValue,
                                        speaker: DeviceValue)
    ensures var u := UpdateMic(UpdateCam(d, camId, Some(camera)).manager, micId, Some(mic)).manager;
      var r := HandleSelectedDevicesCorrected(u, camera, mic, speaker);
      r.effects == [] && r.manager == u
  {
  }

  /**
   Once the engine reports the default output in use, every later device
   list re-selects it, and until then none does.
   */
  lemma DefaultSpeakerFollowsDeviceList(d: Manager, speakerId: string, inUse: DeviceValue, available: seq<MediaDevice>,
                                        later: Option<DeviceValue>)
    ensures var u := UpdateSpeaker(d, speakerId, Some(inUse)).manager;
      Call(SetAudioDevice(DefaultDeviceId)) in HandleAvailableDevices(u, available, later).effects <==> IdOf(inUse) == Some(DefaultDeviceId)
    ensures IdOf(New(None, None).selectedSpeaker).None?
  {
  }

  /**
   `enableMic`: the flag is always recorded; the engine is told only when a
   local participant exists.
   */
  function EnableMic(d: Manager, enable: bool, localParticipantExists: bool): (r: Step)
    ensures r.manager.base.micEnabled == enable
    ensures r.effects == (if localParticipantExists then [Call(SetLocalAudio(enable))] else [])
    ensures r.manager == d.(base := d.base.(micEnabled := enable))
  {
    var d' := d.(base := d.base.(micEnabled := enable));
    if localParticipantExists then Step(d', [Call(SetLocalAudio(enable))]) else Step(d', [])
  }

  /** `enableCam`: the flag is recorded and the engine is always told. */
  function EnableCam(d: Manager, enable: bool): (r: Step)
    ensures r.manager.base.camEnabled == enable
    ensures r.effects == [Call(SetLocalVideo(enable))]
    ensures r.manager == d.(base := d.base.(camEnabled := enable))
  {
    Step(d.(base := d.base.(camEnabled := enable)), [Call(SetLocalVideo(enable))])
  }

  /** Every input the manager reacts to, except `connect`. */
  datatype Input =
    | Engine(event: DailyEvent, speakerInUse: Option<DeviceValue>)
    | InitializeCall(outcome: InitOutcome)
    | DisconnectCall(leaveSucceeded: bool)
    | EnableMicCall(enable: bool, localParticipantExists: bool)
    | EnableCamCall(enable: bool)
    | UpdateMicCall(micId: string, micInUse: Option<DeviceValue>)
    | UpdateCamCall(camId: string, camInUse: Option<DeviceValue>)
    | UpdateSpeakerCall(speakerId: string, speakerInUse: Option<DeviceValue>)

  /**
   What the manager relays to the application about the device errors and
   audio levels it subscribes to; every other event relays nothing here.
   */
  function RelayedNotes(ev: DailyEvent): (r: seq<Notification>)
    ensures ConnectResolved !in r
    ensures ev.CameraErrorEvent? ==> r == DeviceErrorNotes(ev.error)
    ensures ev.LocalAudioLevelEvent? ==> r == [LocalAudioLevel(ev.localLevel)]
    ensures ev.RemoteAudioLevelEvent? ==> r == RemoteLevelNotes(ev.levels, ev.participants)
    ensures !ev.CameraErrorEvent? && !ev.LocalAudioLevelEvent? && !ev.RemoteAudioLevelEvent? ==> r == []
  {
    match ev
    case CameraErrorEvent(error) => DeviceErrorNotes(error)
    case LocalAudioLevelEvent(level) => [LocalAudioLevel(level)]
    case RemoteAudioLevelEvent(levels, participants) => RemoteLevelNotes(levels, participants)
    case _ => []
  }

  /** The events whose listener changes the manager or calls the engine; all others are only relayed. */
  predicate HasOwnHandler(ev: DailyEvent) {
    ev.TrackStartedEvent? || ev.TrackStoppedEvent? || ev.AvailableDevicesUpdated? || ev.SelectedDevicesUpdated?
  }

  /** The events with a listener of their own, each routed to it. */
  function HandleOwnEvent(d: Manager, ev: DailyEvent, speakerInUse: Option<DeviceValue>): (r: Step)
    requires HasOwnHandler(ev)
    ensures r.manager.connectPending ==> d.connectPending
    ensures r.manager.connected == d.connected
    ensures !ev.TrackStartedEvent? ==> Notify(ConnectResolved) !in r.effects
    ensures ev.TrackStartedEvent? ==> r == HandleTrackStarted(d, ev.trackEvent)
    ensures ev.TrackStoppedEvent? ==> r == HandleTrackStopped(d, ev.trackEvent)
    ensures ev.AvailableDevicesUpdated? ==> r == HandleAvailableDevices(d, ev.available, speakerInUse)
    ensures ev.SelectedDevicesUpdated? ==> r == HandleSelectedDevices(d, ev.camera, ev.mic, ev.speaker)
  {
    if ev.TrackStartedEvent? then HandleTrackStarted(d, ev.trackEvent)
    else if ev.TrackStoppedEvent? then HandleTrackStopped(d, ev.trackEvent)
    else if ev.AvailableDevicesUpdated? then HandleAvailableDevices(d, ev.available, speakerInUse)
    else HandleSelectedDevices(d, ev.camera, ev.mic, ev.speaker)
  }

  /**
   The manager's engine listeners; events it does not subscribe to are
   ignored. Only a track start can settle a pending connect. `speakerInUse`
   is the engine's answer when a device list re-selects the default output.
   */
  function HandleEvent(d: Manager, ev: DailyEvent, speakerInUse: Option<DeviceValue>): (r: Step)
    ensures r.manager.connectPending ==> d.connectPending
    ensures r.manager.connected == d.connected
    ensures !ev.TrackStartedEvent? ==> Notify(ConnectResolved) !in r.effects
    ensures ev.TrackStartedEvent? ==> r == HandleTrackStarted(d, ev.trackEvent)
    ensures ev.TrackStoppedEvent? ==> r == HandleTrackStopped(d, ev.trackEvent)
    ensures ev.AvailableDevicesUpdated? ==> r == HandleAvailableDevices(d, ev.available, speakerInUse)
    ensures ev.SelectedDevicesUpdated? ==> r == HandleSelectedDevices(d, ev.camera, ev.mic, ev.speaker)
    ensures !HasOwnHandler(ev) ==> r == Step(d, Notifies(RelayedNotes(ev)))
  {
    if HasOwnHandler(ev) then HandleOwnEvent(d, ev, speakerInUse) else Step(d, Notifies(RelayedNotes(ev)))
  }

  /** One input. */
  function Handle(d: Manager, input: Input): (r: Step)
    ensures r.manager.connectPending ==> d.connectPending
    ensures r.manager.connected ==> d.connected
  {
    match input
    case InitializeCall(outcome) => Initialize(d, outcome)
    case DisconnectCall(ok) => Disconnect(d, ok)
    case EnableMicCall(enable, local) => EnableMic(d, enable, local)
    case EnableCamCall(enable) => EnableCam(d, enable)
    case UpdateMicCall(id, inUse) => UpdateMic(d, id, inUse)
    case UpdateCamCall(id, inUse) => UpdateCam(d, id, inUse)
    case UpdateSpeakerCall(id, inUse) => UpdateSpeaker(d, id, inUse)
    case Engine(ev, speakerInUse) => HandleEvent(d, ev, speakerInUse)
  }

  /** How many times the connect resolver fires in some effects. */
  function ResolvedCount(effects: seq<Effect>): nat {
    Occurrences(effects, Notify(ConnectResolved))
  }

  /** A single input fires the resolver at most once, only if one was stored, and then clears it. */
  lemma StepResolvesAtMostOnce(d: Manager, input: Input)
    ensures var r := Handle(d, input);
      && ResolvedCount(r.effects) <= (if d.connectPending then 1 else 0)
      && (ResolvedCount(r.effects) == 1 ==> !r.manager.connectPending)
  {
    match input
    case Engine(ev, speakerInUse) =>
      if ev.TrackStartedEvent? {
        TrackStartResolvesAtMostOnce(d, ev.trackEvent);
      } else {
        OtherEventsNeverSettle(d, ev, speakerInUse);
      }
    case InitializeCall(outcome) =>
      InitializeNeverSettles(d, outcome);
    case DisconnectCall(ok) =>
      OccurrencesAbsent(Handle(d, input).effects, Notify(ConnectResolved));
    case EnableMicCall(enable, local) =>
      OccurrencesAbsent(Handle(d, input).effects, Notify(ConnectResolved));
    case EnableCamCall(enable) =>
      OccurrencesAbsent(Handle(d, input).effects, Notify(ConnectResolved));
    case UpdateMicCall(id, inUse) =>
      OccurrencesAbsent(Handle(d, input).effects, Notify(ConnectResolved));
    case UpdateCamCall(id, inUse) =>
      OccurrencesAbsent(Handle(d, input).effects, Notify(ConnectResolved));
    case UpdateSpeakerCall(id, inUse) =>
      OccurrencesAbsent(Handle(d, input).effects, Notify(ConnectResolved));
  }

  /** Initialisation never settles a connect. */
  lemma InitializeNeverSettles(d: Manager, outcome: InitOutcome)
    ensures ResolvedCount(Initialize(d, outcome).effects) == 0
  {
    if outcome.InputDevicesFailed? || outcome.InitReady? {
      ListsNeverSettle(outcome.devices);
    }
    OccurrencesAbsent(Initialize(d, outcome).effects, Notify(ConnectResolved));
  }

  lemma TrackStartResolvesAtMostOnce(d: Manager, te: TrackEvent)
    ensures var r := HandleTrackStarted(d, te);
      && ResolvedCount(r.effects) <= (if d.connectPending then 1 else 0)
      && (ResolvedCount(r.effects) == 1 ==> !r.manager.connectPending)
  {
    var r := HandleTrackStarted(d, te);
    if IsLocalTrack(te) {
      var resolves := te.track.kind == AudioKind && d.connectPending;
      var settle := if resolves then [Notify(ConnectResolved)] else [];
      var hook := if d.base.onTrackStarted.Some? then [Notify(TrackStartedHook(te))] else [];
      var rest := [Notify(TrackStarted(te.track, Some(ToParticipant(te.participant.value))))] + hook;
      assert r.effects == settle + rest;
      OccurrencesAppend(settle, rest, Notify(ConnectResolved));
      OccurrencesAbsent(rest, Notify(ConnectResolved));
    }
  }

  lemma OtherEventsNeverSettle(d: Manager, ev: DailyEvent, speakerInUse: Option<DeviceValue>)
    requires !ev.TrackStartedEvent?
    ensures ResolvedCount(Handle(d, Engine(ev, speakerInUse)).effects) == 0
  {
    OccurrencesAbsent(HandleEvent(d, ev, speakerInUse).effects, Notify(ConnectResolved));
  }

  /** The manager and all effects after a sequence of inputs. */
  function Run(d: Manager, inputs: seq<Input>): Step
    decreases |inputs|
  {
    if inputs == [] then Step(d, [])
    else
      var first := Handle(d, inputs[0]);
      var rest := Run(first.manager, inputs[1..]);
      Step(rest.manager, first.effects + rest.effects)
  }

  /**
   Between two connects the stored resolver fires at most once, and never
   when none was stored.
   */
  lemma {:induction false} ResolverFiresAtMostOnce(d: Manager, inputs: seq<Input>)
    ensures ResolvedCount(Run(d, inputs).effects) <= (if d.connectPending then 1 else 0)
    ensures Run(d, inputs).manager.connectPending ==> d.connectPending
    decreases |inputs|
  {
    if inputs != [] {
      var first := Handle(d, inputs[0]);
      StepResolvesAtMostOnce(d, inputs[0]);
      ResolverFiresAtMostOnce(first.manager, inputs[1..]);
      OccurrencesAppend(first.effects, Run(first.manager, inputs[1..]).effects, Notify(ConnectResolved));
    }
  }

  /**
   A connect before initialisation is not lost: whatever initialisation
   does, the first local audio track to start settles it exactly once and
   clears the resolver.
   */
  lemma ConnectSettlesOnLocalAudio(d: Manager, outcome: InitOutcome, te: TrackEvent)
    requires !d.connected && !d.initialized
    requires IsLocalTrack(te) && te.track.kind == AudioKind
    ensures var c := Connect(d, outcome);
      var s := HandleTrackStarted(c.0.manager, te);
      && c.1 == Pending
      && ResolvedCount(s.effects) == 1
      && !s.manager.connectPending
  {
    var m := Connect(d, outcome).0.manager;
    assert m.connectPending;
    var s := HandleTrackStarted(m, te);
    var hook := if m.base.onTrackStarted.Some? then [Notify(TrackStartedHook(te))] else [];
    var rest := [Notify(TrackStarted(te.track, Some(ToParticipant(te.participant.value))))] + hook;
    assert s.effects == [Notify(ConnectResolved)] + rest;
    OccurrencesAppend([Notify(ConnectResolved)], rest, Notify(ConnectResolved));
    OccurrencesAbsent(rest, Notify(ConnectResolved));
    assert [Notify(ConnectResolved)][1..] == [];
  }

  /**
   `disconnect` never drops a stored connect resolver: after a successful
   leave the manager is uninitialised again, so the next connect re-runs
   initialisation and returns a pending promise, overwriting the resolver.
   */
  lemma DisconnectThenConnectRestarts(d: Manager, outcome: InitOutcome)
    ensures var m := Disconnect(d, true).manager;
      var c := Connect(m, outcome);
      && m.connectPending == d.connectPending
      && c.1 == Pending
      && c.0 == Initialize(m.(connected := true, connectPending := true), outcome)
  {
    var m := Disconnect(d, true).manager;
    assert !m.connected && !m.initialized;
  }

  /** The manager classifies camera errors exactly as the transport does. */
  lemma SameDeviceErrorAsTransport(d: Manager, e: CameraError, speakerInUse: Option<DeviceValue>)
    ensures HandleEvent(d, CameraErrorEvent(e), speakerInUse) == Step(d, [Notify(DeviceErrorRaised(GenerateDeviceError(e)))])
  {
  }
}

=== FILE: daily_transport.dfy ===
/**
 The Daily transport: the transport-state machine driven by the client
 (initialize, device initialisation, connect, disconnect) and by the Daily
 engine's events. Every operation is a pure step from the transport's
 bookkeeping and the engine's outcomes to the new bookkeeping and the
 effects it produces, in order.
 */
module DailyTransport {
  import opened Types
  import opened DeviceErrors
  import opened DeviceSelection
  import opened Notifications
  import opened EngineEvents

  /** The bookkeeping the transport keeps between calls and events. */
  datatype Transport = Transport(
    state: TransportState,
    botId: string,
    selectedCam: DeviceValue,
    selectedMic: DeviceValue,
    selectedSpeaker: DeviceValue,
    factoryOptions: map<string, Value>)

  /** The transport after a step, with the step's effects in order. */
  datatype Step = Step(transport: Transport, effects: seq<Effect>)

  /** The error `_connect` raises when the engine refuses to join. */
  datatype StartError = TransportStartError

  /**
   A new transport over the given factory options. The initial state is the
   base transport's, which is supplied by the caller.
   */
  function New(factoryOptions: map<string, Value>, initial: TransportState): (t: Transport)
    ensures t.state == initial && t.botId == "" && t.factoryOptions == factoryOptions
    ensures t.selectedCam == EmptySelection && t.selectedMic == EmptySelection && t.selectedSpeaker == EmptySelection
  {
    Transport(initial, "", EmptySelection, EmptySelection, EmptySelection, factoryOptions)
  }

  /** What the setter announces when moving from one state to another: nothing, or the new state. */
  function Announce(from: TransportState, to: TransportState): (e: seq<Effect>)
    ensures from == to <==> e == []
    ensures from != to ==> e == [Notify(TransportStateChanged(to))]
  {
    if from == to then [] else [Notify(TransportStateChanged(to))]
  }

  /**
   The `state` setter: setting the current state does nothing; any other
   state is stored and announced exactly once.
   */
  function SetState(t: Transport, s: TransportState): (r: Step)
    ensures r.transport == t.(state := s)
    ensures t.state == s <==> r.effects == []
    ensures t.state != s ==> r.effects == [Notify(TransportStateChanged(s))]
  {
    Step(t.(state := s), Announce(t.state, s))
  }

  /** A run of setter calls, one after the other. */
  function SetStates(t: Transport, states: seq<TransportState>): (r: Step)
    decreases |states|
  {
    if states == [] then Step(t, [])
    else
      var first := SetState(t, states[0]);
      var rest := SetStates(first.transport, states[1..]);
      Step(rest.transport, first.effects + rest.effects)
  }

  /** The state a run of setter calls ends in. */
  function FinalState(initial: TransportState, states: seq<TransportState>): TransportState {
    if states == [] then initial else states[|states| - 1]
  }

  lemma {:induction false} SetStatesEnd(t: Transport, states: seq<TransportState>)
    ensures var r := SetStates(t, states);
      && r.transport == t.(state := FinalState(t.state, states))
      && |r.effects| <= |states|
      && (r.effects == [] ==> r.transport.state == t.state)
      && (|r.effects| > 0 ==> r.effects[|r.effects| - 1] == Notify(TransportStateChanged(r.transport.state)))
    decreases |states|
  {
    if states != [] {
      var first := SetState(t, states[0]);
      SetStatesEnd(first.transport, states[1..]);
      if states[1..] != [] {
        assert states[1..][|states[1..]| - 1] == states[|states| - 1];
      }
    }
  }

  /** Whether every effect is a transport-state announcement. */
  predicate OnlyAnnouncements(e: seq<Effect>) {
    forall x :: x in e ==> x.Notify? && x.note.TransportStateChanged?
  }

  lemma {:induction false} SetStatesOnlyAnnounce(t: Transport, states: seq<TransportState>)
    ensures OnlyAnnouncements(SetStates(t, states).effects)
    decreases |states|
  {
    if states != [] {
      var first := SetState(t, states[0]);
      SetStatesOnlyAnnounce(first.transport, states[1..]);
    }
  }

  lemma {:induction false} SetStatesNoRepeats(t: Transport, states: seq<TransportState>)
    ensures var e := SetStates(t, states).effects;
      && (|e| > 0 ==> e[0] != Notify(TransportStateChanged(t.state)))
      && (forall i :: 0 <= i < |e| - 1 ==> e[i] != e[i + 1])
    decreases |states|
  {
    if states != [] {
      var first := SetState(t, states[0]);
      var rest := SetStates(first.transport, states[1..]).effects;
      SetStatesNoRepeats(first.transport, states[1..]);
      var e := SetStates(t, states).effects;
      assert e == first.effects + rest;
      if first.effects != [] {
        assert e == [Notify(TransportStateChanged(states[0]))] + rest;
        forall i | 0 <= i < |e| - 1
          ensures e[i] != e[i + 1]
        {
          if i > 0 {
            assert e[i] == rest[i - 1] && e[i + 1] == rest[i];
          }
        }
      }
    }
  }

  /**
   Over any run of setter calls the announcements are exactly the changes:
   each one carries a state different from the one before it, the last one
   carries the final state, and there are never more than calls.
   */
  lemma SetStatesAnnouncesChanges(t: Transport, states: seq<TransportState>)
    ensures var r := SetStates(t, states);
      && r.transport.state == FinalState(t.state, states)
      && |r.effects| <= |states|
      && (forall x :: x in r.effects ==> x.Notify? && x.note.TransportStateChanged?)
      && (|r.effects| > 0 ==> r.effects[0] != Notify(TransportStateChanged(t.state)))
      && (forall i :: 0 <= i < |r.effects| - 1 ==> r.effects[i] != r.effects[i + 1])
      && (|r.effects| > 0 ==> r.effects[|r.effects| - 1] == Notify(TransportStateChanged(r.transport.state)))
      && (r.effects == [] ==> r.transport.state == t.state)
  {
    SetStatesEnd(t, states);
    SetStatesOnlyAnnounce(t, states);
    SetStatesNoRepeats(t, states);
  }

  const StartVideoOffKey: string := "startVideoOff"
  const StartAudioOffKey: string := "startAudioOff"

  /**
   The factory options after `initialize`: the camera starts off and the
   microphone on unless the factory options already say otherwise, and an
   explicit client option always wins.
   */
  function ApplyMediaDefaults(factory: map<string, Value>, opts: ClientOptions): (r: map<string, Value>)
    ensures opts.enableCam.Some? ==> Get(r, StartVideoOffKey) == Bool(!opts.enableCam.value)
    ensures opts.enableCam.None? && Nullish(Get(factory, StartVideoOffKey)) ==> Get(r, StartVideoOffKey) == Bool(true)
    ensures opts.enableCam.None? && !Nullish(Get(factory, StartVideoOffKey)) ==> Get(r, StartVideoOffKey) == Get(factory, StartVideoOffKey)
    ensures opts.enableMic.Some? ==> Get(r, StartAudioOffKey) == Bool(!opts.enableMic.value)
    ensures opts.enableMic.None? && Nullish(Get(factory, StartAudioOffKey)) ==> Get(r, StartAudioOffKey) == Bool(false)
    ensures opts.enableMic.None? && !Nullish(Get(factory, StartAudioOffKey)) ==> Get(r, StartAudioOffKey) == Get(factory, StartAudioOffKey)
    ensures forall k :: k != StartVideoOffKey && k != StartAudioOffKey ==> Get(r, k) == Get(factory, k)
  {
    var withVideo :=
      if Nullish(Get(factory, StartVideoOffKey)) || opts.enableCam.Some?
      then factory[StartVideoOffKey := Bool(!opts.enableCam.GetOr(false))]
      else factory;
    if Nullish(Get(withVideo, StartAudioOffKey)) || opts.enableMic.Some?
    then withVideo[StartAudioOffKey := Bool(!opts.enableMic.GetOr(true))]
    else withVideo
  }

  /** `initialize`: apply the media defaults, then enter `disconnected`. */
  function Initialize(t: Transport, opts: ClientOptions): (r: Step)
    ensures r.transport == t.(state := Disconnected, factoryOptions := ApplyMediaDefaults(t.factoryOptions, opts))
    ensures r.effects == (if t.state == Disconnected then [] else [Notify(TransportStateChanged(Disconnected))])
    ensures Quiet(r.effects)
  {
    SetState(t.(factoryOptions := ApplyMediaDefaults(t.factoryOptions, opts)), Disconnected)
  }

  /**
   Initialising twice with the same options is initialising once: the
   defaults are applied only where nothing is set or an option overrides,
   and the second call announces nothing.
   */
  lemma InitializeIdempotent(t: Transport, opts: ClientOptions)
    ensures var once := Initialize(t, opts);
      var twice := Initialize(once.transport, opts);
      twice.transport == once.transport && twice.effects == []
  {
    var f := t.factoryOptions;
    var once := ApplyMediaDefaults(f, opts);
    var twice := ApplyMediaDefaults(once, opts);
    assert forall k :: Get(twice, k) == Get(once, k);
    assert forall k :: k in twice <==> k in once by {
      forall k ensures k in twice <==> k in once {
        assert k == StartVideoOffKey || k == StartAudioOffKey || Get(twice, k) == Get(f, k) == Get(once, k);
      }
    }
    assert twice == once;
  }

  /**
   `preAuth`: the given call options replace the factory options outright,
   and the engine pre-authenticates with them. The engine's answer is not
   looked at.
   */
  function PreAuth(t: Transport, callOpts: map<string, Value>): (r: Step)
    ensures r.transport == t.(factoryOptions := callOpts)
    ensures r.effects == [Call(PreAuthenticate(callOpts))]
  {
    Step(t.(factoryOptions := callOpts), [Call(PreAuthenticate(callOpts))])
  }

  /**
   A `preAuth` after `initialize` discards the media defaults: the join then
   uses only the call options and the connection parameters, so with
   neither setting `startVideoOff` the camera default is gone.
   */
  lemma PreAuthDropsMediaDefaults(t: Transport, opts: ClientOptions, callOpts: map<string, Value>,
                                  params: Option<map<string, Value>>, joinSucceeded: bool, aborted: bool)
    ensures var ready := PreAuth(Initialize(t, opts).transport, callOpts).transport;
      var joined := Connect(ready, params, joinSucceeded, aborted).0;
      && joined.transport.factoryOptions == MergedOptions(callOpts, params)
      && (StartVideoOffKey !in callOpts && params.None? ==> Get(joined.transport.factoryOptions, StartVideoOffKey) == Undefined)
  {
  }

  /**
   The engine's answers during device initialisation: `startCamera`,
   `enumerateDevices` or `getInputDevices` may reject, and otherwise the
   devices, the devices in use and whether each level observer runs.
   */
  datatype DevicesOutcome =
    | StartCameraFailed
    | EnumerateFailed
    | InputDevicesFailed(devices: seq<MediaDevice>)
    | DevicesReady(
        devices: seq<MediaDevice>,
        camera: DeviceValue,
        mic: DeviceValue,
        localObserverRunning: bool,
        remoteObserverRunning: bool)

  /** The camera and microphone lists `initDevices` announces, in that order. */
  function InputDeviceLists(devices: seq<MediaDevice>): (r: seq<Effect>)
    ensures |r| == 2
    ensures r[0] == Notify(AvailableCamsUpdated(DevicesOfKind(devices, VideoInputKind)))
    ensures r[1] == Notify(AvailableMicsUpdated(DevicesOfKind(devices, AudioKind)))
  {
    [Notify(AvailableCamsUpdated(DevicesOfKind(devices, VideoInputKind))),
     Notify(AvailableMicsUpdated(DevicesOfKind(devices, AudioKind)))]
  }

  /** The interval the transport asks the engine's level observers for. */
  const ObserverIntervalMs: nat := 100

  /** Starting whichever level observers are not running, local first. */
  function ObserverStarts(localRunning: bool, remoteRunning: bool): (r: seq<Effect>)
    ensures Call(StartLocalAudioLevelObserver(ObserverIntervalMs)) in r <==> !localRunning
    ensures Call(StartRemoteParticipantsAudioLevelObserver(ObserverIntervalMs)) in r <==> !remoteRunning
    ensures |r| == (if localRunning then 0 else 1) + (if remoteRunning then 0 else 1)
    ensures !localRunning ==> r[0] == Call(StartLocalAudioLevelObserver(ObserverIntervalMs))
    ensures forall x :: x in r ==> x.Call?
  {
    (if localRunning then [] else [Call(StartLocalAudioLevelObserver(ObserverIntervalMs))])
    + (if remoteRunning then [] else [Call(StartRemoteParticipantsAudioLevelObserver(ObserverIntervalMs))])
  }

  /** Five quiet parts make a quiet whole. */
  lemma QuietOfFive(a: seq<Effect>, b: seq<Effect>, c: seq<Effect>, d: seq<Effect>, last: Effect)
    requires Quiet(a) && Quiet(b) && Quiet(c) && Quiet(d) && Quiet([last])
    ensures Quiet(a + b + c + d + [last])
  {
  }

  /**
   The devices are ready: after the `initializing` announcement and the
   camera start, the available cameras and microphones are announced, the camera and
   microphone in use are stored and announced, the level observers not yet
   running are started, and `initialized` is entered and announced.
   */
  function DevicesReadyStep(t: Transport, devices: seq<MediaDevice>, camera: DeviceValue, mic: DeviceValue,
                            localRunning: bool, remoteRunning: bool): (r: Step)
    ensures r.transport == t.(state := Initialized, selectedCam := camera, selectedMic := mic)
    ensures r.effects ==
      Announce(t.state, Initializing) + [Call(StartCameraDefault)]
      + InputDeviceLists(devices)
      + [Notify(CamUpdated(camera)), Notify(MicUpdated(mic))]
      + ObserverStarts(localRunning, remoteRunning)
      + [Notify(TransportStateChanged(Initialized))]
  {
    // the setter runs twice: into `initializing`, announced only if it is new,
    // and on into `initialized`, which always differs from `initializing`
    Step(t.(state := Initialized, selectedCam := camera, selectedMic := mic),
         Announce(t.state, Initializing) + [Call(StartCameraDefault)]
         + InputDeviceLists(devices)
         + [Notify(CamUpdated(camera)), Notify(MicUpdated(mic))]
         + ObserverStarts(localRunning, remoteRunning)
         + [Notify(TransportStateChanged(Initialized))])
  }

  /**
   `initDevices`: enter `initializing`; acquire the camera; announce the
   available cameras and microphones; and go on as `DevicesReadyStep` says.
   A rejection by the engine raises it and leaves the transport
   initializing, after whatever was already announced.
   */
  function InitDevices(t: Transport, outcome: DevicesOutcome): (r: (Step, Result<(), DevicesOutcome>))
    ensures r.1.Err? <==> !outcome.DevicesReady?
    ensures r.1.Err? ==> r.1.error == outcome
    ensures t.state != Initializing ==> |r.0.effects| >= 1 && r.0.effects[0] == Notify(TransportStateChanged(Initializing))
    ensures !outcome.DevicesReady? ==> r.0.transport == t.(state := Initializing)
    ensures outcome.StartCameraFailed? || outcome.EnumerateFailed? ==>
      r.0.effects == Announce(t.state, Initializing) + [Call(StartCameraDefault)]
    ensures outcome.InputDevicesFailed? ==>
      r.0.effects == Announce(t.state, Initializing) + [Call(StartCameraDefault)] + InputDeviceLists(outcome.devices)
    ensures outcome.DevicesReady? ==>
      r.0 == DevicesReadyStep(t, outcome.devices, outcome.camera, outcome.mic,
                              outcome.localObserverRunning, outcome.remoteObserverRunning)
  {
    var initializing := Announce(t.state, Initializing) + [Call(StartCameraDefault)];
    var stuck := t.(state := Initializing);
    match outcome
    case StartCameraFailed => (Step(stuck, initializing), Err(outcome))
    case EnumerateFailed => (Step(stuck, initializing), Err(outcome))
    case InputDevicesFailed(devices) => (Step(stuck, initializing + InputDeviceLists(devices)), Err(outcome))
    case DevicesReady(devices, camera, mic, localRunning, remoteRunning) =>
      (DevicesReadyStep(t, devices, camera, mic, localRunning, remoteRunning), Ok(()))
  }

  /** Device initialisation never announces the connection. */
  lemma InitDevicesQuiet(t: Transport, outcome: DevicesOutcome)
    ensures Quiet(InitDevices(t, outcome).0.effects)
  {
    match outcome
    case StartCameraFailed =>
    case EnumerateFailed =>
    case InputDevicesFailed(devices) =>
      var lists := InputDeviceLists(devices);
      assert lists == [lists[0], lists[1]];
    case DevicesReady(devices, camera, mic, localRunning, remoteRunning) =>
      var lists := InputDeviceLists(devices);
      assert lists == [lists[0], lists[1]];
      QuietOfFive(Announce(t.state, Initializing) + [Call(StartCameraDefault)], lists, [Notify(CamUpdated(camera)), Notify(MicUpdated(mic))],
                  ObserverStarts(localRunning, remoteRunning), Notify(TransportStateChanged(Initialized)));
  }

  /** The options `_connect` joins with: the connection parameters override the factory options. */
  function MergedOptions(factory: map<string, Value>, params: Option<map<string, Value>>): (r: map<string, Value>)
    ensures params.None? ==> r == factory
    ensures params.Some? ==> r.Keys == factory.Keys + params.value.Keys
    ensures params.Some? ==> forall k :: k in params.value ==> r[k] == params.value[k]
    ensures params.Some? ==> forall k :: k in factory && k !in params.value ==> r[k] == factory[k]
  {
    match params
    case None => factory
    case Some(p) => factory + p
  }

  /**
   `_connect`: enter `connecting`, join with the merged options, and then
   either enter `error` and raise a start error when the join fails, stop
   silently when the connect was aborted meanwhile, or enter `connected` and
   announce the connection.
   */
  function Connect(t: Transport, params: Option<map<string, Value>>, joinSucceeded: bool, aborted: bool)
    : (r: (Step, Result<(), StartError>))
    ensures var opts := MergedOptions(t.factoryOptions, params);
      var e := r.0.effects;
      && r.0.transport.factoryOptions == opts
      // the join happens in the connecting state, right after it is announced
      && |e| > 0
      && (t.state != Connecting ==> e[0] == Notify(TransportStateChanged(Connecting)) && |e| > 1 && e[1] == Call(Join(opts)))
      && (t.state == Connecting ==> e[0] == Call(Join(opts)))
    ensures r.1.Err? <==> !joinSucceeded
    ensures !joinSucceeded ==>
      r.0.transport.state == Error && r.0.effects[|r.0.effects| - 1] == Notify(TransportStateChanged(Error))
    ensures joinSucceeded && aborted ==>
      r.0.transport.state == Connecting && r.0.effects[|r.0.effects| - 1] == Call(Join(MergedOptions(t.factoryOptions, params)))
    ensures joinSucceeded && !aborted ==>
      r.0.transport.state == Connected && |r.0.effects| >= 2
      && r.0.effects[|r.0.effects| - 2..] == [Notify(TransportStateChanged(Connected)), Notify(OnConnected)]
    ensures Notify(OnConnected) in r.0.effects <==> joinSucceeded && !aborted
    ensures Notify(TransportStateChanged(Connected)) in r.0.effects <==> joinSucceeded && !aborted
    ensures r.0.transport == t.(factoryOptions := MergedOptions(t.factoryOptions, params),
                                state := if !joinSucceeded then Error else if aborted then Connecting else Connected)
    ensures r.0.effects ==
      Announce(t.state, Connecting) + [Call(Join(MergedOptions(t.factoryOptions, params)))]
      + (if !joinSucceeded then [Notify(TransportStateChanged(Error))]
         else if aborted then []
         else [Notify(TransportStateChanged(Connected)), Notify(OnConnected)])
  {
    // `error` and `connected` always differ from `connecting`, so the
    // setter announces them unconditionally
    var opts := MergedOptions(t.factoryOptions, params);
    var joined := Announce(t.state, Connecting) + [Call(Join(opts))];
    var connecting := t.(factoryOptions := opts, state := Connecting);
    if !joinSucceeded then
      (Step(connecting.(state := Error), joined + [Notify(TransportStateChanged(Error))]), Err(TransportStartError))
    else if aborted then
      (Step(connecting, joined), Ok(()))
    else
      (Step(connecting.(state := Connected), joined + [Notify(TransportStateChanged(Connected)), Notify(OnConnected)]), Ok(()))
  }

  /**
   `_disconnect`: enter `disconnecting`, stop both level observers and ask
   the engine to leave; the engine's left-meeting event completes it.
   */
  function Disconnect(t: Transport): (r: Step)
    ensures r.transport == t.(state := Disconnecting)
    ensures r.effects == Announce(t.state, Disconnecting)
      + [Call(StopLocalAudioLevelObserver), Call(StopRemoteParticipantsAudioLevelObserver), Call(Leave)]
    ensures Quiet(r.effects)
  {
    var s := SetState(t, Disconnecting);
    Step(s.transport, s.effects + [Call(StopLocalAudioLevelObserver), Call(StopRemoteParticipantsAudioLevelObserver), Call(Leave)])
  }

  /** Track types routed to the screen-share callbacks. */
  predicate IsScreenTrack(trackType: string) {
    trackType == "screenAudio" || trackType == "screenVideo"
  }

  /** The participant a track event is attributed to, if any. */
  function TrackOwner(te: TrackEvent): Option<Participant> {
    match te.participant
    case None => None
    case Some(p) => Some(ToParticipant(p))
  }

  /** `handleTrackStarted` / `handleTrackStopped`: screen tracks to the screen callbacks, all others to the track callbacks. */
  function TrackNotes(te: TrackEvent, started: bool): (r: seq<Notification>)
    ensures |r| == 1
    ensures r[0].ScreenTrackStarted? || r[0].ScreenTrackStopped? <==> IsScreenTrack(te.trackType)
    ensures r[0].TrackStarted? || r[0].ScreenTrackStarted? <==> started
    ensures var who := TrackOwner(te);
      r[0] == TrackStarted(te.track, who) || r[0] == TrackStopped(te.track, who)
      || r[0] == ScreenTrackStarted(te.track, who) || r[0] == ScreenTrackStopped(te.track, who)
  {
    var who := TrackOwner(te);
    if IsScreenTrack(te.trackType) then
      [if started then ScreenTrackStarted(te.track, who) else ScreenTrackStopped(te.track, who)]
    else
      [if started then TrackStarted(te.track, who) else TrackStopped(te.track, who)]
  }

  /** The callback that reports the end of what a start callback reported. */
  function StopCounterpart(n: Notification): Notification {
    match n
    case TrackStarted(track, who) => TrackStopped(track, who)
    case ScreenTrackStarted(track, who) => ScreenTrackStopped(track, who)
    case _ => n
  }

  /**
   The stop of a track is reported on the same channel as its start, screen
   or not, with the same track and owner.
   */
  lemma TrackStopMatchesStart(te: TrackEvent)
    ensures TrackNotes(te, false) == [StopCounterpart(TrackNotes(te, true)[0])]
  {
  }

  /** `handleParticipantJoined`: always announced; a remote participant becomes the bot. */
  function HandleParticipantJoined(t: Transport, p: DailyParticipant): (r: Step)
    ensures |r.effects| >= 1 && r.effects[0] == Notify(ParticipantJoined(ToParticipant(p)))
    ensures p.local ==> r == Step(t, [Notify(ParticipantJoined(ToParticipant(p)))])
    ensures !p.local ==> r.transport == t.(botId := p.sessionId)
    ensures !p.local ==> r.effects == [Notify(ParticipantJoined(ToParticipant(p))), Notify(BotConnected(ToParticipant(p)))]
    ensures Quiet(r.effects)
  {
    var joined := Notify(ParticipantJoined(ToParticipant(p)));
    if p.local then Step(t, [joined])
    else Step(t.(botId := p.sessionId), [joined, Notify(BotConnected(ToParticipant(p)))])
  }

  /** `handleParticipantLeft`: always announced; a remote participant leaving clears the bot. */
  function HandleParticipantLeft(t: Transport, p: DailyParticipant): (r: Step)
    ensures |r.effects| >= 1 && r.effects[0] == Notify(ParticipantLeft(ToParticipant(p)))
    ensures p.local ==> r == Step(t, [Notify(ParticipantLeft(ToParticipant(p)))])
    ensures !p.local ==> r.transport == t.(botId := "")
    ensures !p.local ==> r.effects == [Notify(ParticipantLeft(ToParticipant(p))), Notify(BotDisconnected(ToParticipant(p)))]
    ensures Quiet(r.effects)
  {
    var left := Notify(ParticipantLeft(ToParticipant(p)));
    if p.local then Step(t, [left])
    else Step(t.(botId := ""), [left, Notify(BotDisconnected(ToParticipant(p)))])
  }

  /** `handleLeftMeeting`: enter `disconnected`, forget the bot, announce the disconnection. */
  function HandleLeftMeeting(t: Transport): (r: Step)
    ensures r.transport == t.(state := Disconnected, botId := "")
    ensures r.effects == Announce(t.state, Disconnected) + [Notify(OnDisconnected)]
    ensures Quiet(r.effects)
  {
    var s := SetState(t, Disconnected);
    Step(s.transport.(botId := ""), s.effects + [Notify(OnDisconnected)])
  }

  /**
   A disconnect followed by the engine's `left-meeting` event: the transport
   passes through `disconnecting`, ends `disconnected` without a bot, and
   reports exactly the stops, the leave and the two disconnection notices.
   */
  lemma DisconnectThenLeftMeeting(t: Transport)
    ensures var a := Disconnect(t);
      var b := HandleLeftMeeting(a.transport);
      && a.transport.state == Disconnecting
      && b.transport == t.(state := Disconnected, botId := "")
      && a.effects + b.effects ==
         Announce(t.state, Disconnecting)
         + [Call(StopLocalAudioLevelObserver), Call(StopRemoteParticipantsAudioLevelObserver), Call(Leave)]
         + [Notify(TransportStateChanged(Disconnected)), Notify(OnDisconnected)]
  {
    var a := Disconnect(t);
    var b := HandleLeftMeeting(a.transport);
    assert Announce(Disconnecting, Disconnected) == [Notify(TransportStateChanged(Disconnected))];
    assert b.effects == [Notify(TransportStateChanged(Disconnected)), Notify(OnDisconnected)];
  }

  /** `handleFatalError`: enter `error`, forget the bot, report a fatal error. */
  function HandleFatalError(t: Transport, errorMsg: string): (r: Step)
    ensures r.transport == t.(state := Error, botId := "")
    ensures r.effects == Announce(t.state, Error) + [Notify(ErrorRaised(errorMsg, true))]
    ensures Quiet(r.effects)
  {
    var s := SetState(t, Error);
    Step(s.transport.(botId := ""), s.effects + [Notify(ErrorRaised(errorMsg, true))])
  }

  /** The only non-fatal error the transport reports. */
  const ScreenShareErrorType: string := "screen-share-error"

  /** `handleNonFatalError`: only screen-share errors are reported. */
  function NonFatalNotes(errorType: string, errorMsg: string): (r: seq<Notification>)
    ensures errorType == ScreenShareErrorType ==> r == [ScreenShareError(errorMsg)]
    ensures errorType != ScreenShareErrorType ==> r == []
  {
    if errorType == ScreenShareErrorType then [ScreenShareError(errorMsg)] else []
  }

  /**
   `handleSelectedDevicesUpdated` as written: each of camera, microphone and
   speaker is stored and announced whenever the as-written comparison says
   changed, so every device the event carries is announced again.
   */
  function HandleSelectedDevices(t: Transport, camera: DeviceValue, mic: DeviceValue, speaker: DeviceValue): (r: Step)
    ensures r.transport.state == t.state && r.transport.botId == t.botId
    ensures r.transport.factoryOptions == t.factoryOptions
    ensures Notify(CamUpdated(camera)) in r.effects <==> ChangedAsWritten(t.selectedCam, camera)
    ensures Notify(MicUpdated(mic)) in r.effects <==> ChangedAsWritten(t.selectedMic, mic)
    ensures Notify(SpeakerUpdated(speaker)) in r.effects <==> ChangedAsWritten(t.selectedSpeaker, speaker)
    ensures ChangedAsWritten(t.selectedCam, camera) ==> r.transport.selectedCam == camera
    ensures !ChangedAsWritten(t.selectedCam, camera) ==> r.transport.selectedCam == t.selectedCam
    ensures ChangedAsWritten(t.selectedMic, mic) ==> r.transport.selectedMic == mic
    ensures !ChangedAsWritten(t.selectedMic, mic) ==> r.transport.selectedMic == t.selectedMic
    ensures ChangedAsWritten(t.selectedSpeaker, speaker) ==> r.transport.selectedSpeaker == speaker
    ensures !ChangedAsWritten(t.selectedSpeaker, speaker) ==> r.transport.selectedSpeaker == t.selectedSpeaker
    ensures camera != NoDevice && mic != NoDevice && speaker != NoDevice ==>
      r.effects == [Notify(CamUpdated(camera)), Notify(MicUpdated(mic)), Notify(SpeakerUpdated(speaker))]
    ensures r.effects == (if ChangedAsWritten(t.selectedCam, camera) then [Notify(CamUpdated(camera))] else [])
                         + (if ChangedAsWritten(t.selectedMic, mic) then [Notify(MicUpdated(mic))] else [])
                         + (if ChangedAsWritten(t.selectedSpeaker, speaker) then [Notify(SpeakerUpdated(speaker))] else [])
    ensures |r.effects| <= 3
    ensures Quiet(r.effects)
  {
    var (cam, camNote) := DiffAsWritten(t.selectedCam, camera);
    var (m, micNote) := DiffAsWritten(t.selectedMic, mic);
    var (spk, spkNote) := DiffAsWritten(t.selectedSpeaker, speaker);
    var notes :=
      (if camNote.Some? then [Notify(CamUpdated(camera))] else [])
      + (if micNote.Some? then [Notify(MicUpdated(mic))] else [])
      + (if spkNote.Some? then [Notify(SpeakerUpdated(speaker))] else []);
    Step(t.(selectedCam := cam, selectedMic := m, selectedSpeaker := spk), notes)
  }

  /**
   The selected-devices handler with the comparison corrected to compare
   ids: each device is stored and announced only when it changed.
   */
  function HandleSelectedDevicesCorrected(t: Transport, camera: DeviceValue, mic: DeviceValue, speaker: DeviceValue): (r: Step)
    ensures r.transport.state == t.state && r.transport.botId == t.botId
    ensures r.transport.factoryOptions == t.factoryOptions
    ensures Notify(CamUpdated(camera)) in r.effects <==> Changed(t.selectedCam, camera)
    ensures Notify(MicUpdated(mic)) in r.effects <==> Changed(t.selectedMic, mic)
    ensures Notify(SpeakerUpdated(speaker)) in r.effects <==> Changed(t.selectedSpeaker, speaker)
    ensures Changed(t.selectedCam, camera) ==> r.transport.selectedCam == camera
    ensures !Changed(t.selectedCam, camera) ==> r.transport.selectedCam == t.selectedCam
    ensures Changed(t.selectedMic, mic) ==> r.transport.selectedMic == mic
    ensures !Changed(t.selectedMic, mic) ==> r.transport.selectedMic == t.selectedMic
    ensures Changed(t.selectedSpeaker, speaker) ==> r.transport.selectedSpeaker == speaker
    ensures !Changed(t.selectedSpeaker, speaker) ==> r.transport.selectedSpeaker == t.selectedSpeaker
    ensures r.effects == (if Changed(t.selectedCam, camera) then [Notify(CamUpdated(camera))] else [])
                         + (if Changed(t.selectedMic, mic) then [Notify(MicUpdated(mic))] else [])
                         + (if Changed(t.selectedSpeaker, speaker) then [Notify(SpeakerUpdated(speaker))] else [])
    ensures |r.effects| <= 3
  {
    var (cam, camNote) := Diff(t.selectedCam, camera);
    var (m, micNote) := Diff(t.selectedMic, mic);
    var (spk, spkNote) := Diff(t.selectedSpeaker, speaker);
    var notes :=
      (if camNote.Some? then [Notify(CamUpdated(camera))] else [])
      + (if micNote.Some? then [Notify(MicUpdated(mic))] else [])
      + (if spkNote.Some? then [Notify(SpeakerUpdated(speaker))] else []);
    Step(t.(selectedCam := cam, selectedMic := m, selectedSpeaker := spk), notes)
  }

  /**
   `updateCam` / `updateMic` / `updateSpeaker`: the engine is asked to
   switch the device. When the switch and the following query for the
   devices in use both succeed, the device reported in use (`inUse`)
   becomes the selection; when either is rejected (`None`) the selection
   stays as it was.
   */
  function UpdateCam(t: Transport, camId: string, inUse: Option<DeviceValue>): (r: Step)
    ensures r.effects == [Call(SetCamera(camId))]
    ensures inUse.Some? ==> r.transport == t.(selectedCam := inUse.value)
    ensures inUse.None? ==> r.transport == t
  {
    match inUse
    case Some(device) => Step(t.(selectedCam := device), [Call(SetCamera(camId))])
    case None => Step(t, [Call(SetCamera(camId))])
  }

  function UpdateMic(t: Transport, micId: string, inUse: Option<DeviceValue>): (r: Step)
    ensures r.effects == [Call(SetAudioDevice(micId))]
    ensures inUse.Some? ==> r.transport == t.(selectedMic := inUse.value)
    ensures inUse.None? ==> r.transport == t
  {
    match inUse
    case Some(device) => Step(t.(selectedMic := device), [Call(SetAudioDevice(micId))])
    case None => Step(t, [Call(SetAudioDevice(micId))])
  }

  function UpdateSpeaker(t: Transport, speakerId: string, inUse: Option<DeviceValue>): (r: Step)
    ensures r.effects == [Call(SetAudioDevice(speakerId))]
    ensures inUse.Some? ==> r.transport == t.(selectedSpeaker := inUse.value)
    ensures inUse.None? ==> r.transport == t
  {
    match inUse
    case Some(device) => Step(t.(selectedSpeaker := device), [Call(SetAudioDevice(speakerId))])
    case None => Step(t, [Call(SetAudioDevice(speakerId))])
  }

  /**
   As written, after three successful updates the engine's selected-devices
   event for the very devices now in use announces all three again.
   */
  lemma UpdateThenSelectionEventReannounces(t: Transport, camId: string, micId: string, speakerId: string,
                                            camera: DeviceValue, mic: DeviceValue, speaker: DeviceValue)
    requires camera != NoDevice && mic != NoDevice && speaker != NoDevice
    ensures var u := UpdateSpeaker(UpdateMic(UpdateCam(t, camId, Some(camera)).transport, micId, Some(mic)).transport,
                                   speakerId, Some(speaker)).transport;
      var r := HandleSelectedDevices(u, camera, mic, speaker);
      r.effects == [Notify(CamUpdated(camera)), Notify(MicUpdated(mic)), Notify(SpeakerUpdated(speaker))]
      && r.transport == u
  {
  }

  /**
   With the corrected comparison, the same event after the same updates
   announces nothing and leaves the selection as the updates stored it.
   */
  lemma UpdateThenSelectionEventIsQuiet(t: Transport, camId: string, micId: string, speakerId: string,
                                        camera: DeviceValue, mic: DeviceValue, speaker: DeviceValue)
    ensures var u := UpdateSpeaker(UpdateMic(UpdateCam(t, camId, Some(camera)).transport, micId, Some(mic)).transport,
                                   speakerId, Some(speaker)).transport;
      var r := HandleSelectedDevicesCorrected(u, camera, mic, speaker);
      r.effects == [] && r.transport == u
  {
  }

  /** The events that change the transport state. */
  predicate ChangesLifecycle(ev: DailyEvent) {
    ev.LeftMeeting? || ev.FatalError?
  }

  /** The events that may change the bot association. */
  predicate TouchesBot(ev: DailyEvent) {
    || (ev.ParticipantJoinedEvent? && !ev.joined.local)
    || (ev.ParticipantLeftEvent? && !ev.left.local)
    || ev.LeftMeeting?
    || ev.FatalError?
  }

  /** The events whose handler changes the transport; all others are only relayed. */
  predicate HasOwnHandler(ev: DailyEvent) {
    ev.SelectedDevicesUpdated? || ev.ParticipantJoinedEvent? || ev.ParticipantLeftEvent? || ev.LeftMeeting? || ev.FatalError?
  }

  /**
   What the transport tells the application about an event it only relays,
   leaving itself unchanged; the events with a handler of their own relay
   nothing here.
   */
  function RelayedNotes(ev: DailyEvent): (r: seq<Notification>)
    ensures forall n :: n in r ==> !n.TransportStateChanged? && !n.OnConnected?
    ensures ev.AppMessage? ==> r == HandleAppMessage(ev.msgLabel, ev.id, ev.msgType, ev.data)
    ensures ev.AvailableDevicesUpdated? ==> r == AvailableDevicesNotes(ev.available)
    ensures ev.CameraErrorEvent? ==> r == DeviceErrorNotes(ev.error)
    ensures ev.TrackStartedEvent? ==> r == TrackNotes(ev.trackEvent, true)
    ensures ev.TrackStoppedEvent? ==> r == TrackNotes(ev.trackEvent, false)
    ensures ev.LocalAudioLevelEvent? ==> r == [LocalAudioLevel(ev.localLevel)]
    ensures ev.RemoteAudioLevelEvent? ==> r == RemoteLevelNotes(ev.levels, ev.participants)
    ensures ev.NonFatalError? ==> r == NonFatalNotes(ev.errorType, ev.nonFatalMsg)
    ensures HasOwnHandler(ev) ==> r == []
  {
    match ev
    case AppMessage(msgLabel, id, msgType, data) => HandleAppMessage(msgLabel, id, msgType, data)
    case AvailableDevicesUpdated(available) => AvailableDevicesNotes(available)
    case CameraErrorEvent(error) => DeviceErrorNotes(error)
    case TrackStartedEvent(te) => TrackNotes(te, true)
    case TrackStoppedEvent(te) => TrackNotes(te, false)
    case LocalAudioLevelEvent(level) => [LocalAudioLevel(level)]
    case RemoteAudioLevelEvent(levels, participants) => RemoteLevelNotes(levels, participants)
    case NonFatalError(errorType, errorMsg) => NonFatalNotes(errorType, errorMsg)
    case _ => []
  }

  /** The events with a handler of their own, each routed to it. */
  function HandleOwnEvent(t: Transport, ev: DailyEvent): (r: Step)
    requires HasOwnHandler(ev)
    ensures ev.SelectedDevicesUpdated? ==> r == HandleSelectedDevices(t, ev.camera, ev.mic, ev.speaker)
    ensures ev.ParticipantJoinedEvent? ==> r == HandleParticipantJoined(t, ev.joined)
    ensures ev.ParticipantLeftEvent? ==> r == HandleParticipantLeft(t, ev.left)
    ensures ev.LeftMeeting? ==> r == HandleLeftMeeting(t)
    ensures ev.FatalError? ==> r == HandleFatalError(t, ev.fatalMsg)
  {
    if ev.SelectedDevicesUpdated? then HandleSelectedDevices(t, ev.camera, ev.mic, ev.speaker)
    else if ev.ParticipantJoinedEvent? then HandleParticipantJoined(t, ev.joined)
    else if ev.ParticipantLeftEvent? then HandleParticipantLeft(t, ev.left)
    else if ev.LeftMeeting? then HandleLeftMeeting(t)
    else HandleFatalError(t, ev.fatalMsg)
  }

  /** The engine-event dispatcher: one pure step per event. */
  function HandleEvent(t: Transport, ev: DailyEvent): (r: Step)
    ensures ev.SelectedDevicesUpdated? ==> r == HandleSelectedDevices(t, ev.camera, ev.mic, ev.speaker)
    ensures ev.ParticipantJoinedEvent? ==> r == HandleParticipantJoined(t, ev.joined)
    ensures ev.ParticipantLeftEvent? ==> r == HandleParticipantLeft(t, ev.left)
    ensures ev.LeftMeeting? ==> r == HandleLeftMeeting(t)
    ensures ev.FatalError? ==> r == HandleFatalError(t, ev.fatalMsg)
    ensures !HasOwnHandler(ev) ==> r == Step(t, Notifies(RelayedNotes(ev)))
    ensures !ChangesLifecycle(ev) ==> r.transport.state == t.state
    ensures !TouchesBot(ev) ==> r.transport.botId == t.botId
    ensures !ev.SelectedDevicesUpdated? ==>
      r.transport.selectedCam == t.selectedCam && r.transport.selectedMic == t.selectedMic
      && r.transport.selectedSpeaker == t.selectedSpeaker
    ensures r.transport.factoryOptions == t.factoryOptions
    ensures forall i :: 0 <= i < |r.effects| ==> r.effects[i].Notify?
  {
    if HasOwnHandler(ev) then HandleOwnEvent(t, ev) else Step(t, Notifies(RelayedNotes(ev)))
  }

  /** Effects that neither announce `connected` nor fire the connected callback. */
  predicate Quiet(e: seq<Effect>) {
    Notify(TransportStateChanged(Connected)) !in e && Notify(OnConnected) !in e
  }

  lemma NotesQuiet(notes: seq<Notification>)
    requires forall n :: n in notes ==> !n.TransportStateChanged? && !n.OnConnected?
    ensures Quiet(Notifies(notes))
  {
  }

  /** No engine event announces the connection; only `_connect` does. */
  lemma EventsNeverAnnounceConnection(t: Transport, ev: DailyEvent)
    ensures Quiet(HandleEvent(t, ev).effects)
  {
    match ev
    case SelectedDevicesUpdated(camera, mic, speaker) =>
      assert HandleEvent(t, ev) == HandleSelectedDevices(t, camera, mic, speaker);
    case ParticipantJoinedEvent(p) =>
      assert HandleEvent(t, ev) == HandleParticipantJoined(t, p);
    case ParticipantLeftEvent(p) =>
      assert HandleEvent(t, ev) == HandleParticipantLeft(t, p);
    case LeftMeeting =>
      assert HandleEvent(t, ev) == HandleLeftMeeting(t);
    case FatalError(errorMsg) =>
      assert HandleEvent(t, ev) == HandleFatalError(t, errorMsg);
    case _ =>
      NotesQuiet(RelayedNotes(ev));
  }

  /** The transport after a sequence of engine events, first event first. */
  function Run(t: Transport, events: seq<DailyEvent>): Transport
    decreases |events|
  {
    if events == [] then t else Run(HandleEvent(t, events[0]).transport, events[1..])
  }

  /** Handling one more event after a run. */
  lemma {:induction false} RunSnoc(t: Transport, events: seq<DailyEvent>, ev: DailyEvent)
    ensures Run(t, events + [ev]) == HandleEvent(Run(t, events), ev).transport
    decreases |events|
  {
    if events == [] {
      assert [ev][1..] == [];
    } else {
      assert (events + [ev])[1..] == events[1..] + [ev];
      RunSnoc(HandleEvent(t, events[0]).transport, events[1..], ev);
    }
  }

  /**
   The bot association an event sequence leaves behind, read from its last
   bot-related event: the session of a remote participant that joined, or
   none after a remote departure, a left-meeting or a fatal error.
   */
  function BotAfter(initial: string, events: seq<DailyEvent>): string
    decreases |events|
  {
    if events == [] then initial
    else
      var last := events[|events| - 1];
      if last.ParticipantJoinedEvent? && !last.joined.local then last.joined.sessionId
      else if TouchesBot(last) then ""
      else BotAfter(initial, events[..|events| - 1])
  }

  /**
   One event's effect on the bot association: a remote participant joining
   becomes the bot, every other bot-related event clears it, and all other
   events leave it alone.
   */
  lemma BotAfterEvent(t: Transport, ev: DailyEvent)
    ensures HandleEvent(t, ev).transport.botId ==
      if ev.ParticipantJoinedEvent? && !ev.joined.local then ev.joined.sessionId
      else if TouchesBot(ev) then "" else t.botId
  {
    match ev
    case ParticipantJoinedEvent(p) =>
      assert HandleEvent(t, ev) == HandleParticipantJoined(t, p);
    case ParticipantLeftEvent(p) =>
      assert HandleEvent(t, ev) == HandleParticipantLeft(t, p);
    case LeftMeeting =>
    case FatalError(errorMsg) =>
    case _ =>
  }

  /** The transport's bot id always equals the one the last bot-related event determines. */
  lemma {:induction false} BotIdTracksLastBotEvent(t: Transport, events: seq<DailyEvent>)
    ensures Run(t, events).botId == BotAfter(t.botId, events)
    decreases |events|
  {
    if events != [] {
      var prefix := events[..|events| - 1];
      var last := events[|events| - 1];
      assert events == prefix + [last];
      RunSnoc(t, prefix, last);
      BotIdTracksLastBotEvent(t, prefix);
      BotAfterEvent(Run(t, prefix), last);
    }
  }

  /**
   A fatal error while connected: the state becomes `error`, the bot is
   forgotten, and the application sees the state change and one fatal error.
   */
  lemma FatalErrorWhileConnected(t: Transport, errorMsg: string)
    requires t.state == Connected
    ensures var r := HandleEvent(t, FatalError(errorMsg));
      && r.transport.state == Error && r.transport.botId == ""
      && r.effects == [Notify(TransportStateChanged(Error)), Notify(ErrorRaised(errorMsg, true))]
  {
  }

  /** What drives the transport: the application's calls, with the engine's answers, and the engine's events. */
  datatype Input =
    | InitializeCall(opts: ClientOptions)
    | PreAuthCall(callOpts: map<string, Value>)
    | InitDevicesCall(outcome: DevicesOutcome)
    | ConnectCall(params: Option<map<string, Value>>, joinSucceeded: bool, aborted: bool)
    | DisconnectCall
    | UpdateCamCall(camId: string, camInUse: Option<DeviceValue>)
    | UpdateMicCall(micId: string, micInUse: Option<DeviceValue>)
    | UpdateSpeakerCall(speakerId: string, speakerInUse: Option<DeviceValue>)
    | Engine(event: DailyEvent)

  /** One input; only engine events can change the bot association. */
  function Handle(t: Transport, input: Input): (r: Step)
    ensures !input.Engine? ==> r.transport.botId == t.botId
  {
    match input
    case InitializeCall(opts) => Initialize(t, opts)
    case PreAuthCall(callOpts) => PreAuth(t, callOpts)
    case InitDevicesCall(outcome) => InitDevices(t, outcome).0
    case ConnectCall(params, joinSucceeded, aborted) => Connect(t, params, joinSucceeded, aborted).0
    case DisconnectCall => Disconnect(t)
    case UpdateCamCall(camId, inUse) => UpdateCam(t, camId, inUse)
    case UpdateMicCall(micId, inUse) => UpdateMic(t, micId, inUse)
    case UpdateSpeakerCall(speakerId, inUse) => UpdateSpeaker(t, speakerId, inUse)
    case Engine(ev) => HandleEvent(t, ev)
  }

  /** The transport and all effects after a sequence of inputs, first input first. */
  function Drive(t: Transport, inputs: seq<Input>): Step
    decreases |inputs|
  {
    if inputs == [] then Step(t, [])
    else
      var first := Handle(t, inputs[0]);
      var rest := Drive(first.transport, inputs[1..]);
      Step(rest.transport, first.effects + rest.effects)
  }

  /** A connect whose join succeeded and was not aborted. */
  predicate JoinsFully(input: Input) {
    input.ConnectCall? && input.joinSucceeded && !input.aborted
  }

  /** How many inputs connect fully. */
  function FullJoins(inputs: seq<Input>): nat
    decreases |inputs|
  {
    if inputs == [] then 0 else (if JoinsFully(inputs[0]) then 1 else 0) + FullJoins(inputs[1..])
  }

  lemma QuietHasNoConnection(e: seq<Effect>)
    requires Quiet(e)
    ensures Occurrences(e, Notify(TransportStateChanged(Connected))) == 0
    ensures Occurrences(e, Notify(OnConnected)) == 0
  {
    OccurrencesAbsent(e, Notify(TransportStateChanged(Connected)));
    OccurrencesAbsent(e, Notify(OnConnected));
  }

  /** A full connect announces `connected` once and fires the connected callback once. */
  lemma FullJoinAnnouncesOnce(t: Transport, params: Option<map<string, Value>>)
    ensures var e := Connect(t, params, true, false).0.effects;
      && Occurrences(e, Notify(TransportStateChanged(Connected))) == 1
      && Occurrences(e, Notify(OnConnected)) == 1
  {
    var opts := MergedOptions(t.factoryOptions, params);
    var joined := Announce(t.state, Connecting) + [Call(Join(opts))];
    var tail := [Notify(TransportStateChanged(Connected)), Notify(OnConnected)];
    assert Connect(t, params, true, false).0.effects == joined + tail;
    assert Quiet(joined);
    QuietHasNoConnection(joined);
    assert tail[1..] == [Notify(OnConnected)];
    assert tail[1..][1..] == [];
    OccurrencesAppend(joined, tail, Notify(TransportStateChanged(Connected)));
    OccurrencesAppend(joined, tail, Notify(OnConnected));
  }

  /** One input announces the connection once if it connects fully, and otherwise not at all. */
  lemma StepAnnouncesConnection(t: Transport, input: Input)
    ensures var e := Handle(t, input).effects;
      && Occurrences(e, Notify(TransportStateChanged(Connected))) == (if JoinsFully(input) then 1 else 0)
      && Occurrences(e, Notify(OnConnected)) == (if JoinsFully(input) then 1 else 0)
  {
    var e := Handle(t, input).effects;
    if input.ConnectCall? && input.joinSucceeded && !input.aborted {
      FullJoinAnnouncesOnce(t, input.params);
    } else {
      OnlyFullJoinsAnnounce(t, input);
      QuietHasNoConnection(e);
    }
  }

  /** Every input other than a connect whose join completes leaves the connection unannounced. */
  lemma OnlyFullJoinsAnnounce(t: Transport, input: Input)
    requires !JoinsFully(input)
    ensures Quiet(Handle(t, input).effects)
  {
    match input
    case Engine(ev) => EventsNeverAnnounceConnection(t, ev);
    case InitDevicesCall(outcome) => InitDevicesQuiet(t, outcome);
    case _ =>
  }

  /**
   Over any sequence of calls and events, `connected` is announced, and the
   connected callback fires, exactly once per connect whose join succeeded
   without being aborted; nothing else connects the transport.
   */
  lemma {:induction false} ConnectionOnlyFromFullJoins(t: Transport, inputs: seq<Input>)
    ensures Occurrences(Drive(t, inputs).effects, Notify(TransportStateChanged(Connected))) == FullJoins(inputs)
    ensures Occurrences(Drive(t, inputs).effects, Notify(OnConnected)) == FullJoins(inputs)
    decreases |inputs|
  {
    if inputs != [] {
      var first := Handle(t, inputs[0]);
      var rest := Drive(first.transport, inputs[1..]);
      StepAnnouncesConnection(t, inputs[0]);
      ConnectionOnlyFromFullJoins(first.transport, inputs[1..]);
      OccurrencesAppend(first.effects, rest.effects, Notify(TransportStateChanged(Connected)));
      OccurrencesAppend(first.effects, rest.effects, Notify(OnConnected));
    }
  }
}

=== FILE: device_errors.dfy ===
/**
 Classification of the engine's camera errors into the client's device
 errors: which of cam, mic and speaker are affected, and which error type
 the application sees. Both Daily-based components use this one mapping.
 */
module DeviceErrors {

  /** A device class named in a device error. */
  datatype Device = Cam | Mic | Speaker

  /** The client's device error types; `Unlisted` carries an engine type the mapping does not name. */
  datatype DeviceErrorType =
    | InUse
    | Permissions
    | UndefinedMediaDevices
    | NotFound
    | Constraints
    | Unknown
    | Unlisted(name: string)

  /** Type-specific details attached to some device errors. */
  datatype Details = NoDetails | BlockedBy(blockedBy: string) | Reason(reason: string)

  /** The device error handed to the application's device-error callback. */
  datatype DeviceError = DeviceError(
    devices: seq<Device>,
    errorType: DeviceErrorType,
    msg: string,
    details: Details)

  /**
   The engine's camera error variants. The media lists hold the engine's
   media names (`"video"`, `"audio"`); `OtherCameraError` stands for any
   type string the mapping does not name. A named type such as
   `permissions` always arrives as its own variant, never as an
   `OtherCameraError` carrying that name.
   */
  datatype CameraError =
    | PermissionsError(blockedMedia: seq<string>, blockedBy: string, msg: string)
    | NotFoundError(missingMedia: seq<string>, msg: string)
    | ConstraintsError(failedMedia: seq<string>, reason: string, msg: string)
    | CamInUseError(msg: string)
    | MicInUseError(msg: string)
    | CamMicInUseError(msg: string)
    | UndefinedMediaDevicesError(msg: string)
    | UnknownError(msg: string)
    | OtherCameraError(errorName: string, msg: string)

  /** The media list of the three variants that carry one. */
  predicate HasMediaList(e: CameraError) {
    e.PermissionsError? || e.NotFoundError? || e.ConstraintsError?
  }

  function MediaList(e: CameraError): seq<string>
    requires HasMediaList(e)
  {
    match e
    case PermissionsError(m, _, _) => m
    case NotFoundError(m, _) => m
    case ConstraintsError(m, _, _) => m
  }

  /** One media entry: `video` is the camera, anything else the microphone. */
  function MediaToDevice(media: string): (d: Device)
    ensures d == Cam <==> media == "video"
    ensures d != Speaker
  {
    if media == "video" then Cam else Mic
  }

  /** Maps a media list entry by entry, preserving order and length. */
  function MediaToDevices(media: seq<string>): (r: seq<Device>)
    ensures |r| == |media|
    ensures forall i :: 0 <= i < |media| ==> r[i] == MediaToDevice(media[i])
  {
    if media == [] then [] else [MediaToDevice(media[0])] + MediaToDevices(media[1..])
  }

  /** The engine's type name of a camera error, as the error carries it. */
  function EngineTypeName(e: CameraError): string {
    match e
    case PermissionsError(_, _, _) => "permissions"
    case NotFoundError(_, _) => "not-found"
    case ConstraintsError(_, _, _) => "constraints"
    case CamInUseError(_) => "cam-in-use"
    case MicInUseError(_) => "mic-in-use"
    case CamMicInUseError(_) => "cam-mic-in-use"
    case UndefinedMediaDevicesError(_) => "undefined-mediadevices"
    case UnknownError(_) => "unknown"
    case OtherCameraError(n, _) => n
  }

  /** The in-use variants, which collapse into the single `in-use` type. */
  predicate IsInUse(e: CameraError) {
    e.CamInUseError? || e.MicInUseError? || e.CamMicInUseError?
  }

  /** The error type the application sees when the engine's type is passed through unchanged. */
  function PassThroughType(e: CameraError): DeviceErrorType
    requires !IsInUse(e)
  {
    match e
    case PermissionsError(_, _, _) => Permissions
    case NotFoundError(_, _) => NotFound
    case ConstraintsError(_, _, _) => Constraints
    case UndefinedMediaDevicesError(_) => UndefinedMediaDevices
    case UnknownError(_) => Unknown
    case OtherCameraError(n, _) => Unlisted(n)
  }

  /**
   `generateDeviceError`: the total mapping from a camera error to the
   device error reported to the application.
   */
  function GenerateDeviceError(e: CameraError): (r: DeviceError)
    ensures r.msg == e.msg
    ensures HasMediaList(e) ==> r.devices == MediaToDevices(MediaList(e))
    ensures IsInUse(e) <==> r.errorType == InUse
    ensures !IsInUse(e) ==> r.errorType == PassThroughType(e)
    ensures e.CamInUseError? ==> r.devices == [Cam]
    ensures e.MicInUseError? ==> r.devices == [Mic]
    ensures (e.CamMicInUseError? || e.UndefinedMediaDevicesError? || e.UnknownError? || e.OtherCameraError?)
            ==> r.devices == [Cam, Mic]
    ensures e.PermissionsError? <==> r.details.BlockedBy?
    ensures e.ConstraintsError? <==> r.details.Reason?
    ensures e.PermissionsError? ==> r.details.blockedBy == e.blockedBy
    ensures e.ConstraintsError? ==> r.details.reason == e.reason
  {
    match e
    case PermissionsError(media, blocker, msg) => DeviceError(MediaToDevices(media), Permissions, msg, BlockedBy(blocker))
    case NotFoundError(media, msg) => DeviceError(MediaToDevices(media), NotFound, msg, NoDetails)
    case ConstraintsError(media, reason, msg) => DeviceError(MediaToDevices(media), Constraints, msg, Reason(reason))
    case CamInUseError(msg) => DeviceError([Cam], InUse, msg, NoDetails)
    case MicInUseError(msg) => DeviceError([Mic], InUse, msg, NoDetails)
    case CamMicInUseError(msg) => DeviceError([Cam, Mic], InUse, msg, NoDetails)
    case UndefinedMediaDevicesError(msg) => DeviceError([Cam, Mic], UndefinedMediaDevices, msg, NoDetails)
    case UnknownError(msg) => DeviceError([Cam, Mic], Unknown, msg, NoDetails)
    case OtherCameraError(name, msg) => DeviceError([Cam, Mic], Unlisted(name), msg, NoDetails)
  }

  /**
   The affected-device list is empty exactly when the engine reported one of
   the list-carrying variants with an empty list; every other variant names
   at least one device.
   */
  lemma DevicesEmptyOnlyForEmptyMediaList(e: CameraError)
    ensures GenerateDeviceError(e).devices == [] <==> HasMediaList(e) && MediaList(e) == []
  {
  }

  /** The speaker is never reported as affected by a camera error. */
  lemma {:induction false} NeverSpeaker(e: CameraError)
    ensures Speaker !in GenerateDeviceError(e).devices
  {
    var r := GenerateDeviceError(e);
    if HasMediaList(e) {
      forall i | 0 <= i < |r.devices|
        ensures r.devices[i] != Speaker
      {
        assert r.devices[i] == MediaToDevice(MediaList(e)[i]);
      }
    }
  }

  /** For the variants that carry a media list, the camera is flagged iff some reported medium is video. */
  lemma CamFlaggedIffVideo(e: CameraError)
    requires HasMediaList(e)
    ensures Cam in GenerateDeviceError(e).devices <==> "video" in MediaList(e)
  {
    var r := GenerateDeviceError(e);
    var media := MediaList(e);
    if "video" in media {
      var i :| 0 <= i < |media| && media[i] == "video";
      assert r.devices[i] == Cam;
    }
    if Cam in r.devices {
      var i :| 0 <= i < |r.devices| && r.devices[i] == Cam;
      assert media[i] == "video";
    }
  }

  /** The type name the application sees for a device error. */
  function TypeName(t: DeviceErrorType): string {
    match t
    case InUse => "in-use"
    case Permissions => "permissions"
    case UndefinedMediaDevices => "undefined-mediadevices"
    case NotFound => "not-found"
    case Constraints => "constraints"
    case Unknown => "unknown"
    case Unlisted(n) => n
  }

  /** Apart from the three in-use variants, the engine's type string reaches the application unchanged. */
  lemma TypeNamePreserved(e: CameraError)
    ensures !IsInUse(e) ==> TypeName(GenerateDeviceError(e).errorType) == EngineTypeName(e)
    ensures IsInUse(e) ==> TypeName(GenerateDeviceError(e).errorType) == "in-use"
  {
  }
}

=== FILE: device_selection.dfy ===
/**
 The selected-device bookkeeping of the Daily components. The stored
 selection starts as an empty object and is overwritten with the device
 the engine reports in its selected-devices event; a change notification
 should fire only when the selection actually changed.
 */
module DeviceSelection {
  import opened Types

  /**
   A selected device as the components store and receive it: an engine
   device object (whose id may be missing, as in the initial `{}`), or
   undefined when the engine reports no device of that class.
   */
  datatype DeviceValue = NoDevice | DeviceObject(deviceId: Option<string>)

  /** The initial stored selection, an empty object. */
  const EmptySelection: DeviceValue := DeviceObject(None)

  /** `value?.deviceId`: the id, or undefined. */
  function IdOf(v: DeviceValue): Option<string> {
    match v
    case NoDevice => None
    case DeviceObject(id) => id
  }

  /**
   The comparison as the source writes it: `stored?.deviceId !== incoming`.
   The left side is a string or undefined and the right side a device object
   or undefined, so the two are strictly equal only when both are undefined.
   */
  predicate ChangedAsWritten(stored: DeviceValue, incoming: DeviceValue) {
    !(IdOf(stored).None? && incoming.NoDevice?)
  }

  /**
   As written, handing the same device back to the diff reports a change:
   the engine re-announcing the current selection fires the update callback
   again.
   */
  lemma ReselectNotifiesAsWritten(v: DeviceValue)
    requires v != NoDevice
    ensures ChangedAsWritten(v, v)
  {
  }

  /** A concrete instance: the stored camera `A` re-announced as `A`. */
  lemma ReselectSameCameraAsWritten()
    ensures ChangedAsWritten(DeviceObject(Some("A")), DeviceObject(Some("A")))
  {
    ReselectNotifiesAsWritten(DeviceObject(Some("A")));
  }

  /**
   One device class of the selected-devices handlers as written: the
   incoming device is stored and reported whenever the comparison above
   says changed, which is every time the engine reports a device.
   */
  function DiffAsWritten(stored: DeviceValue, incoming: DeviceValue): (r: (DeviceValue, Option<DeviceValue>))
    ensures r.1.Some? <==> ChangedAsWritten(stored, incoming)
    ensures incoming != NoDevice ==> r == (incoming, Some(incoming))
    ensures r.1.None? ==> r.0 == stored && incoming == NoDevice
  {
    if ChangedAsWritten(stored, incoming) then (incoming, Some(incoming)) else (stored, None)
  }

  /** The intended comparison: the ids on both sides differ. */
  predicate Changed(stored: DeviceValue, incoming: DeviceValue) {
    IdOf(stored) != IdOf(incoming)
  }

  /**
   One device class of the corrected diff: store the incoming device and report it
   when the selection changed; otherwise keep the stored value and report
   nothing.
   */
  function Diff(stored: DeviceValue, incoming: DeviceValue): (r: (DeviceValue, Option<DeviceValue>))
    ensures r.1.Some? <==> IdOf(stored) != IdOf(incoming)
    ensures r.1.Some? ==> r.1.value == incoming && r.0 == incoming
    ensures r.1.None? ==> r.0 == stored
    ensures IdOf(r.0) == IdOf(incoming)
  {
    if Changed(stored, incoming) then (incoming, Some(incoming)) else (stored, None)
  }

  /** Re-announcing the stored selection is silent, and the diff is idempotent. */
  lemma DiffIdempotent(stored: DeviceValue, incoming: DeviceValue)
    ensures Diff(stored, stored).1.None?
    ensures Diff(Diff(stored, incoming).0, incoming).1.None?
  {
  }
}

=== FILE: engine_events.dfy ===
/**
 The Daily engine's events and the handlers that the Daily transport and the
 Daily media manager share verbatim: app-message filtering, available-device
 fan-out, device errors and audio levels.
 */
module EngineEvents {
  import opened Types
  import opened DeviceErrors
  import opened DeviceSelection
  import opened Notifications

  /** The label every client-protocol message carries. */
  const MessageLabel: string := "rtvi-ai"

  /** The events the Daily components subscribe to, with the payload fields they read. */
  datatype DailyEvent =
    | AppMessage(msgLabel: Value, id: Value, msgType: Value, data: Value)
    | AvailableDevicesUpdated(available: seq<MediaDevice>)
    | SelectedDevicesUpdated(camera: DeviceValue, mic: DeviceValue, speaker: DeviceValue)
    | CameraErrorEvent(error: CameraError)
    | TrackStartedEvent(trackEvent: TrackEvent)
    | TrackStoppedEvent(trackEvent: TrackEvent)
    | ParticipantJoinedEvent(joined: DailyParticipant)
    | ParticipantLeftEvent(left: DailyParticipant)
    | LocalAudioLevelEvent(localLevel: real)
    /** `participants` is the engine's participant table read while handling the event. */
    | RemoteAudioLevelEvent(levels: seq<(string, real)>, participants: map<string, DailyParticipant>)
    | LeftMeeting
    | FatalError(fatalMsg: string)
    | NonFatalError(errorType: string, nonFatalMsg: string)

  /** `handleAppMessage`: only messages labelled for the client protocol reach the message handler. */
  function HandleAppMessage(msgLabel: Value, id: Value, msgType: Value, data: Value): (r: seq<Notification>)
    ensures msgLabel == Str(MessageLabel) ==> r == [MessageReceived(RtviMessage(id, msgType, data))]
    ensures msgLabel != Str(MessageLabel) ==> r == []
  {
    if msgLabel == Str(MessageLabel) then [MessageReceived(RtviMessage(id, msgType, data))] else []
  }

  /**
   A client-protocol message the engine delivers under its label reaches
   the handler intact; under any other label the same fields are dropped.
   */
  lemma AppMessageRoundTrip(m: RtviMessage, otherLabel: Value)
    requires otherLabel != Str(MessageLabel)
    ensures HandleAppMessage(Str(MessageLabel), m.id, m.msgType, m.data) == [MessageReceived(m)]
    ensures HandleAppMessage(otherLabel, m.id, m.msgType, m.data) == []
  {
  }

  /** The engine's kind name of cameras; microphones and speakers are of kind `AudioKind`. */
  const VideoInputKind: string := "videoinput"

  /**
   `handleAvailableDevicesUpdated`: cameras, then microphones, then speakers,
   the last two both drawn from the devices of kind `audio`.
   */
  function AvailableDevicesNotes(available: seq<MediaDevice>): (r: seq<Notification>)
    ensures |r| == 3
    ensures r[0].AvailableCamsUpdated? && r[1].AvailableMicsUpdated? && r[2].AvailableSpeakersUpdated?
    ensures forall d :: d in r[0].devices <==> d in available && d.kind == VideoInputKind
    ensures forall d :: d in r[1].devices <==> d in available && d.kind == AudioKind
    ensures r[2].devices == r[1].devices
    ensures r[0].devices == DevicesOfKind(available, VideoInputKind)
    ensures r[1].devices == DevicesOfKind(available, AudioKind)
  {
    var mics := DevicesOfKind(available, AudioKind);
    [AvailableCamsUpdated(DevicesOfKind(available, VideoInputKind)),
     AvailableMicsUpdated(mics),
     AvailableSpeakersUpdated(mics)]
  }

  /** `handleDeviceError`: one device-error callback carrying the classified error. */
  function DeviceErrorNotes(e: CameraError): (r: seq<Notification>)
    ensures |r| == 1 && r[0].DeviceErrorRaised?
    ensures r[0].error.msg == e.msg
    ensures r[0].error.devices == [] <==> HasMediaList(e) && MediaList(e) == []
    ensures r == [DeviceErrorRaised(GenerateDeviceError(e))]
  {
    DevicesEmptyOnlyForEmptyMediaList(e);
    [DeviceErrorRaised(GenerateDeviceError(e))]
  }

  /** A remote level is reported when it is truthy and the engine knows the participant. */
  predicate Reportable(entry: (string, real), participants: map<string, DailyParticipant>) {
    entry.1 != 0.0 && entry.0 in participants
  }

  /** The callback a reportable level entry produces. */
  function LevelNote(entry: (string, real), participants: map<string, DailyParticipant>): Notification
    requires entry.0 in participants
  {
    RemoteAudioLevel(entry.1, ToParticipant(participants[entry.0]))
  }

  /**
   `handleRemoteAudioLevel`: in the event's key order, one remote-level
   callback per reportable entry, and nothing for silent or unknown ones.
   */
  function RemoteLevelNotes(levels: seq<(string, real)>, participants: map<string, DailyParticipant>): (r: seq<Notification>)
    ensures |r| <= |levels|
    ensures forall n :: n in r ==> n.RemoteAudioLevel? && n.level != 0.0
    ensures forall i :: 0 <= i < |levels| && Reportable(levels[i], participants) ==> LevelNote(levels[i], participants) in r
    ensures forall n :: n in r ==> exists i :: 0 <= i < |levels| && Reportable(levels[i], participants) && n == LevelNote(levels[i], participants)
    ensures |levels| == 1 ==>
      r == (if Reportable(levels[0], participants) then [LevelNote(levels[0], participants)] else [])
    decreases |levels|
  {
    if levels == [] then []
    else
      var rest := RemoteLevelNotes(levels[1..], participants);
      assert forall i :: 1 <= i < |levels| ==> levels[i] == levels[1..][i - 1];
      if Reportable(levels[0], participants) then [LevelNote(levels[0], participants)] + rest
      else rest
  }

  /**
   The reports for a concatenation of entries are the reports for each part,
   in order; with the one-entry case this fixes the reports completely: one
   per reportable entry, in key order, and no duplicates.
   */
  lemma {:induction false} RemoteLevelNotesAppend(a: seq<(string, real)>, b: seq<(string, real)>,
                                                  participants: map<string, DailyParticipant>)
    ensures RemoteLevelNotes(a + b, participants) == RemoteLevelNotes(a, participants) + RemoteLevelNotes(b, participants)
    decreases |a|
  {
    if a == [] {
      assert a + b == b;
    } else {
      assert (a + b)[0] == a[0];
      assert (a + b)[1..] == a[1..] + b;
      RemoteLevelNotesAppend(a[1..], b, participants);
    }
  }

  /** No level is reported when every level is zero. */
  lemma {:induction false} SilenceReportsNothing(levels: seq<(string, real)>, participants: map<string, DailyParticipant>)
    requires forall i :: 0 <= i < |levels| ==> levels[i].1 == 0.0
    ensures RemoteLevelNotes(levels, participants) == []
  {
    if levels != [] {
      SilenceReportsNothing(levels[1..], participants);
    }
  }
}

=== FILE: local_audio_level_observer.dfy ===
/**
 The small-WebRTC local audio level observer: bound to one peer connection
 for its whole life, it reads and reports only the local (sender) level on
 every tick while started, and stops itself on the third failed read since
 the last start.
 */
module LocalAudioLevelObserver {
  import opened Types
  import opened AudioStats
  import ALO = AudioLevelObserver

  /** The observer's state; the connection survives `stop`. */
  datatype LocalObserver = LocalObserver(
    pc: ALO.PeerConnection,
    inProgress: bool,
    failsCount: nat,
    interval: Option<int>)

  /** The sender side needs a second transceiver before it reads statistics. */
  const MinTransceivers: nat := 2

  /** The message `start` throws with; the error itself is the other observer's `StartError`. */
  const AlreadyStartedMessage: string :=
    "The local audio level observer has already been started. Please call stop() before starting again."

  /** The observer after a tick and the levels it reported. */
  datatype Step = Step(observer: LocalObserver, levels: seq<Level>)

  /** The timer runs exactly while in progress; no failures are counted while stopped or at the limit. */
  predicate Valid(o: LocalObserver) {
    && (o.inProgress <==> o.interval.Some?)
    && (!o.inProgress ==> o.failsCount == 0)
    && o.failsCount < ALO.MaxFailures
  }

  /** A new observer on a connection: not started, no failures. */
  function New(pc: ALO.PeerConnection): (o: LocalObserver)
    ensures Valid(o) && o.pc == pc && !o.inProgress && o.failsCount == 0
  {
    LocalObserver(pc, false, 0, None)
  }

  /** `start`: refuses while in progress; otherwise starts the timer with `interval || 500`. */
  function Start(o: LocalObserver, interval: Option<int>): (r: Result<LocalObserver, ALO.StartError>)
    ensures r.Err? <==> o.inProgress
    ensures r.Err? ==> r.error == ALO.AlreadyStarted(AlreadyStartedMessage)
    ensures r.Ok? ==> r.value == LocalObserver(o.pc, true, o.failsCount, Some(ALO.EffectiveInterval(interval)))
    ensures Valid(o) && r.Ok? ==> Valid(r.value)
  {
    if o.inProgress then Err(ALO.AlreadyStarted(AlreadyStartedMessage))
    else Ok(o.(inProgress := true, interval := Some(ALO.EffectiveInterval(interval))))
  }

  /** `stop`: a no-op unless in progress; otherwise resets the failures and clears the timer, keeping the connection. */
  function Stop(o: LocalObserver): (r: LocalObserver)
    ensures !o.inProgress ==> r == o
    ensures o.inProgress ==> r == New(o.pc)
    ensures r.pc == o.pc
    ensures Valid(o) ==> Valid(r)
  {
    if !o.inProgress then o else New(o.pc)
  }

  /** What the environment answers during one tick. */
  datatype TickEnv = TickEnv(micEnabled: bool, transceivers: nat, senderRead: StatsRead)

  /** The level a tick reads. */
  function TickLevel(env: TickEnv): Result<Level, ReadError> {
    SenderLevel(true, env.micEnabled, env.transceivers, MinTransceivers, env.senderRead)
  }

  /** A failed read: count it, and stop at the limit. */
  function RecordFailure(o: LocalObserver): (r: LocalObserver)
    requires o.inProgress
    ensures o.failsCount + 1 >= ALO.MaxFailures ==> r == New(o.pc)
    ensures o.failsCount + 1 < ALO.MaxFailures ==> r == o.(failsCount := o.failsCount + 1)
  {
    var counted := o.(failsCount := o.failsCount + 1);
    if counted.failsCount >= ALO.MaxFailures then Stop(counted) else counted
  }

  /** One timer tick: report the level, or count the failure. */
  function Tick(o: LocalObserver, env: TickEnv): (r: Step)
    requires Valid(o)
    ensures Valid(r.observer)
    ensures !o.inProgress ==> r == Step(o, [])
    ensures o.inProgress && TickLevel(env).Ok? ==> r == Step(o, [TickLevel(env).value])
    ensures o.inProgress && TickLevel(env).Err? ==> r == Step(RecordFailure(o), [])
    ensures o.inProgress && env.transceivers < MinTransceivers ==> r == Step(o, [Silence])
  {
    if !o.inProgress then Step(o, [])
    else
      match TickLevel(env)
      case Err(_) => Step(RecordFailure(o), [])
      case Ok(level) => Step(o, [level])
  }

  /** The observer after a sequence of ticks. */
  function RunTicks(o: LocalObserver, envs: seq<TickEnv>): (r: LocalObserver)
    requires Valid(o)
    ensures Valid(r)
    decreases |envs|
  {
    if envs == [] then o else RunTicks(Tick(o, envs[0]).observer, envs[1..])
  }

  /** How many of some ticks fail. */
  function FailedTicks(envs: seq<TickEnv>): nat
    decreases |envs|
  {
    if envs == [] then 0 else (if TickLevel(envs[0]).Err? then 1 else 0) + FailedTicks(envs[1..])
  }

  /** A stopped observer ignores ticks. */
  lemma {:induction false} StoppedIgnoresTicks(o: LocalObserver, envs: seq<TickEnv>)
    requires Valid(o) && !o.inProgress
    ensures RunTicks(o, envs) == o
    decreases |envs|
  {
    if envs != [] {
      StoppedIgnoresTicks(o, envs[1..]);
    }
  }

  /**
   Failures accumulate across successful ticks; the observer keeps running
   until the total reaches the limit, and is then stopped on the same
   connection with its count reset.
   */
  lemma {:induction false} StopsAtThirdFailure(o: LocalObserver, envs: seq<TickEnv>)
    requires Valid(o) && o.inProgress
    ensures var total := o.failsCount + FailedTicks(envs);
      && (total < ALO.MaxFailures ==> RunTicks(o, envs) == o.(failsCount := total))
      && (total >= ALO.MaxFailures ==> RunTicks(o, envs) == New(o.pc))
    decreases |envs|
  {
    if envs != [] {
      var next := Tick(o, envs[0]).observer;
      if next.inProgress {
        StopsAtThirdFailure(next, envs[1..]);
      } else {
        StoppedIgnoresTicks(next, envs[1..]);
      }
    }
  }

  /** After `stop`, including one the failures forced, `start` succeeds again on the same connection. */
  lemma RestartAfterStop(o: LocalObserver, interval: Option<int>)
    requires Valid(o)
    ensures Start(Stop(o), interval) == Ok(LocalObserver(o.pc, true, 0, Some(ALO.EffectiveInterval(interval))))
  {
  }
}

=== FILE: media_manager.dfy ===
/**
 The media-manager base shared by the small-WebRTC transport and the Daily
 media manager: the client options with their defaults, the mic and camera
 flags, screen-share support, and the track-event hooks.
 */
module MediaManager {
  import opened Types

  /** An application hook for track events; only its identity matters here. */
  datatype TrackHook = TrackHook(handle: nat)

  /** The base's bookkeeping. */
  datatype Manager = Manager(
    options: Option<ClientOptions>,
    callbacks: CallbackSet,
    micEnabled: bool,
    camEnabled: bool,
    supportsScreenShare: bool,
    onTrackStarted: Option<TrackHook>,
    onTrackStopped: Option<TrackHook>)

  /** A new manager: microphone on, camera off, no screen sharing, no options, no hooks. */
  function New(): (m: Manager)
    ensures m.micEnabled && !m.camEnabled && !m.supportsScreenShare
    ensures m.options.None? && m.callbacks == EmptyCallbacks
    ensures m.onTrackStarted.None? && m.onTrackStopped.None?
  {
    Manager(None, EmptyCallbacks, true, false, false, None, None)
  }

  /**
   `setClientOptions`: ignored once options are set unless `override` is
   given; otherwise the options are stored with their defaults (no
   callbacks, microphone on, camera off).
   */
  function SetClientOptions(m: Manager, opts: ClientOptions, override: bool): (r: Manager)
    ensures m.options.Some? && !override ==> r == m
    ensures m.options.None? || override ==>
      && r.options == Some(opts)
      && r.callbacks == opts.callbacks.GetOr(EmptyCallbacks)
      && r.micEnabled == opts.enableMic.GetOr(true)
      && r.camEnabled == opts.enableCam.GetOr(false)
    ensures r.supportsScreenShare == m.supportsScreenShare
    ensures r.onTrackStarted == m.onTrackStarted && r.onTrackStopped == m.onTrackStopped
  {
    if m.options.Some? && !override then m
    else m.(
      options := Some(opts),
      callbacks := opts.callbacks.GetOr(EmptyCallbacks),
      micEnabled := opts.enableMic.GetOr(true),
      camEnabled := opts.enableCam.GetOr(false))
  }

  /** The first options stick: later calls without `override` change nothing. */
  lemma {:induction false} FirstOptionsStick(m: Manager, first: ClientOptions, later: seq<ClientOptions>)
    ensures var r := SetClientOptions(m, first, false);
      SetAll(r, later, false) == r
    decreases |later|
  {
    var r := SetClientOptions(m, first, false);
    assert r.options.Some?;
    if later != [] {
      FirstOptionsStick(m, first, later[1..]);
    }
  }

  /** Applies several option sets in order with the same `override` flag. */
  function SetAll(m: Manager, opts: seq<ClientOptions>, override: bool): Manager
    decreases |opts|
  {
    if opts == [] then m else SetAll(SetClientOptions(m, opts[0], override), opts[1..], override)
  }

  /** With `override`, the last options always win, whatever was set before. */
  lemma {:induction false} OverrideLastWins(m: Manager, opts: seq<ClientOptions>)
    requires opts != []
    ensures SetAll(m, opts, true).options == Some(opts[|opts| - 1])
    ensures SetAll(m, opts, true).micEnabled == opts[|opts| - 1].enableMic.GetOr(true)
    ensures SetAll(m, opts, true).camEnabled == opts[|opts| - 1].enableCam.GetOr(false)
    decreases |opts|
  {
    if |opts| > 1 {
      OverrideLastWins(SetClientOptions(m, opts[0], true), opts[1..]);
      assert opts[1..][|opts[1..]| - 1] == opts[|opts| - 1];
    }
  }

  /** On a new manager the defaults apply to whatever the options leave out. */
  lemma DefaultsOnNewManager(opts: ClientOptions)
    requires opts.enableMic.None? && opts.enableCam.None?
    ensures var r := SetClientOptions(New(), opts, false);
      r.micEnabled && !r.camEnabled && !r.supportsScreenShare
  {
  }

  /** `supportsScreenShare`: the stored flag. */
  function SupportsScreenShare(m: Manager): (b: bool)
    ensures b <==> m.supportsScreenShare
  {
    m.supportsScreenShare
  }

  /** The `onTrackStarted` setter: only the hook changes. */
  function SetOnTrackStarted(m: Manager, hook: Option<TrackHook>): (r: Manager)
    ensures GetOnTrackStarted(r) == hook
    ensures r.onTrackStopped == m.onTrackStopped && r.options == m.options
    ensures r.micEnabled == m.micEnabled && r.camEnabled == m.camEnabled
    ensures r.callbacks == m.callbacks && r.supportsScreenShare == m.supportsScreenShare
  {
    m.(onTrackStarted := hook)
  }

  /** The `onTrackStarted` getter. */
  function GetOnTrackStarted(m: Manager): Option<TrackHook> {
    m.onTrackStarted
  }

  /** The `onTrackStopped` setter: only the hook changes. */
  function SetOnTrackStopped(m: Manager, hook: Option<TrackHook>): (r: Manager)
    ensures GetOnTrackStopped(r) == hook
    ensures r.onTrackStarted == m.onTrackStarted && r.options == m.options
    ensures r.micEnabled == m.micEnabled && r.camEnabled == m.camEnabled
    ensures r.callbacks == m.callbacks && r.supportsScreenShare == m.supportsScreenShare
  {
    m.(onTrackStopped := hook)
  }

  /** The `onTrackStopped` getter. */
  function GetOnTrackStopped(m: Manager): Option<TrackHook> {
    m.onTrackStopped
  }

  /** Setting one hook leaves the other readable as before, and setting the read value back is a no-op. */
  lemma HooksIndependent(m: Manager, started: Option<TrackHook>, stopped: Option<TrackHook>)
    ensures GetOnTrackStarted(SetOnTrackStopped(SetOnTrackStarted(m, started), stopped)) == started
    ensures GetOnTrackStopped(SetOnTrackStarted(SetOnTrackStopped(m, stopped), started)) == stopped
    ensures SetOnTrackStarted(m, GetOnTrackStarted(m)) == m
    ensures SetOnTrackStopped(m, GetOnTrackStopped(m)) == m
  {
  }
}

=== FILE: notifications.dfy ===
/**
 What the components emit: application callbacks and calls into the media
 engine, in the order the source performs them. A callback the application
 did not register is simply not delivered; the model emits every one.
 */
module Notifications {
  import opened Types
  import opened DeviceErrors
  import opened DeviceSelection

  /** A message handed to the client's inbound message handler. */
  datatype RtviMessage = RtviMessage(id: Value, msgType: Value, data: Value)

  /** A track event as the engine delivers it. */
  datatype TrackEvent = TrackEvent(trackType: string, track: Track, participant: Option<DailyParticipant>)

  /** The application callbacks the components invoke. */
  datatype Notification =
    | TransportStateChanged(state: TransportState)
    | OnConnected
    | OnDisconnected
    | ParticipantJoined(participant: Participant)
    | ParticipantLeft(participant: Participant)
    | BotConnected(participant: Participant)
    | BotDisconnected(participant: Participant)
    | TrackStarted(track: Track, who: Option<Participant>)
    | TrackStopped(track: Track, who: Option<Participant>)
    | ScreenTrackStarted(track: Track, who: Option<Participant>)
    | ScreenTrackStopped(track: Track, who: Option<Participant>)
    | LocalAudioLevel(level: real)
    | RemoteAudioLevel(level: real, participant: Participant)
    | AvailableCamsUpdated(devices: seq<MediaDevice>)
    | AvailableMicsUpdated(devices: seq<MediaDevice>)
    | AvailableSpeakersUpdated(devices: seq<MediaDevice>)
    | CamUpdated(device: DeviceValue)
    | MicUpdated(device: DeviceValue)
    | SpeakerUpdated(device: DeviceValue)
    | DeviceErrorRaised(error: DeviceError)
    | ErrorRaised(errorMsg: string, fatal: bool)
    | ScreenShareError(errorMsg: string)
    | MessageReceived(message: RtviMessage)
    | ConnectResolved
    | TrackStartedHook(event: TrackEvent)
    | TrackStoppedHook(event: TrackEvent)

  /**
   Calls into the media engine. Where the component goes on to use an
   answer (`join`, `startCamera`, device enumeration, the devices in use),
   the answer is an input of the step that makes the call.
   */
  datatype EngineCall =
    | Join(options: map<string, Value>)
    | Leave
    | StartCamera(startVideoOff: bool, startAudioOff: bool)
    | StartCameraDefault  // `startCamera()` with no options, as the transport calls it
    | StopLocalAudioLevelObserver
    | StopRemoteParticipantsAudioLevelObserver
    | StartLocalAudioLevelObserver(intervalMs: nat)
    | StartRemoteParticipantsAudioLevelObserver(intervalMs: nat)
    | SetLocalAudio(enable: bool)
    | SetLocalVideo(enable: bool)
    | SetAudioDevice(deviceId: string)
    | SetCamera(deviceId: string)
    | PreAuthenticate(options: map<string, Value>)

  /** One observable effect of a step. */
  datatype Effect = Notify(note: Notification) | Call(call: EngineCall)

  /** Notifications as effects, in order. */
  function Notifies(notes: seq<Notification>): (r: seq<Effect>)
    ensures |r| == |notes|
    ensures forall i :: 0 <= i < |notes| ==> r[i] == Notify(notes[i])
    ensures forall n :: Notify(n) in r <==> n in notes
    ensures forall x :: x in r ==> x.Notify?
  {
    if notes == [] then [] else [Notify(notes[0])] + Notifies(notes[1..])
  }

  /** How often an effect occurs in a sequence of effects. */
  function Occurrences(e: seq<Effect>, x: Effect): nat
    decreases |e|
  {
    if e == [] then 0 else (if e[0] == x then 1 else 0) + Occurrences(e[1..], x)
  }

  lemma {:induction false} OccurrencesAppend(a: seq<Effect>, b: seq<Effect>, x: Effect)
    ensures Occurrences(a + b, x) == Occurrences(a, x) + Occurrences(b, x)
    decreases |a|
  {
    if a == [] {
      assert a + b == b;
    } else {
      assert (a + b)[0] == a[0];
      assert (a + b)[1..] == a[1..] + b;
      OccurrencesAppend(a[1..], b, x);
    }
  }

  lemma {:induction false} OccurrencesAbsent(e: seq<Effect>, x: Effect)
    requires x !in e
    ensures Occurrences(e, x) == 0
    decreases |e|
  {
    if e != [] {
      OccurrencesAbsent(e[1..], x);
    }
  }
}

=== FILE: types.dfy ===
/**
 Shared vocabulary of the transports: the transport state, participants,
 JavaScript values as the connection parameters and factory options carry
 them, and media tracks.
 */
module Types {

  /** A value that may be absent (`undefined` in the source). */
  datatype Option<+T> = None | Some(value: T) {
    /** The `??` operator: the value, or `default` when absent. */
    function GetOr(default: T): T {
      match this
      case Some(v) => v
      case None => default
    }
  }

  /** Success or a thrown error. */
  datatype Result<+R, +E> = Ok(value: R) | Err(error: E)

  /** The ten transport states of the client protocol. */
  datatype TransportState =
    | Disconnected
    | Initializing
    | Initialized
    | Authenticating
    | Authenticated
    | Connecting
    | Connected
    | Ready
    | Disconnecting
    | Error

  /** The participant projection handed to application callbacks. */
  datatype Participant = Participant(id: string, local: bool, name: string)

  /** The fields of an engine participant the transports read. */
  datatype DailyParticipant = DailyParticipant(
    sessionId: string,
    userId: string,
    userName: string,
    local: bool)

  /** Projects an engine participant: the id is the user id, not the session id. */
  function ToParticipant(p: DailyParticipant): (r: Participant)
    ensures r.id == p.userId && r.name == p.userName && r.local == p.local
  {
    Participant(p.userId, p.local, p.userName)
  }

  /**
   A JavaScript value as far as the transports inspect it. Numbers are reals;
   NaN is not represented.
   */
  datatype Value =
    | Undefined
    | Null
    | Bool(b: bool)
    | Num(n: real)
    | Str(s: string)
    | Obj(fields: map<string, Value>)

  /** JavaScript truthiness. */
  predicate Truthy(v: Value) {
    match v
    case Undefined => false
    case Null => false
    case Bool(b) => b
    case Num(n) => n != 0.0
    case Str(s) => s != ""
    case Obj(_) => true
  }

  /** `v == null` in JavaScript: undefined or null. */
  predicate Nullish(v: Value) {
    v.Undefined? || v.Null?
  }

  /** Property read on a plain object: a missing key reads as undefined. */
  function Get(m: map<string, Value>, key: string): (r: Value)
    ensures key !in m ==> r == Undefined
    ensures key in m ==> r == m[key]
  {
    if key in m then m[key] else Undefined
  }

  /** The application's callback object; only its identity matters to the transports. */
  datatype CallbackSet = EmptyCallbacks | Callbacks(handle: nat)

  /** The client options the transports and media managers read. */
  datatype ClientOptions = ClientOptions(
    callbacks: Option<CallbackSet>,
    enableMic: Option<bool>,
    enableCam: Option<bool>)

  /** A media track as the engine reports it; only its kind is inspected. */
  datatype Track = Track(trackId: nat, kind: string)

  /** An engine device descriptor as listed by device enumeration. */
  datatype MediaDevice = MediaDevice(deviceId: string, kind: string, name: string)

  /** The kind name the engine and WebRTC give audio devices, audio tracks and audio statistics. */
  const AudioKind: string := "audio"

  /**
   `devices.filter((d) => d.kind === kind)`: the devices of the given kind,
   in enumeration order; multiplicity is the subject of
   `DevicesOfKindCounts` and order that of `DevicesOfKindAppend`.
   */
  function DevicesOfKind(devices: seq<MediaDevice>, kind: string): (r: seq<MediaDevice>)
    ensures forall d :: d in r ==> d in devices && d.kind == kind
    ensures forall d :: d in devices && d.kind == kind ==> d in r
    ensures |devices| == 1 ==> r == (if devices[0].kind == kind then devices else [])
    ensures |r| <= |devices|
    decreases |devices|
  {
    if devices == [] then []
    else
      assert devices == [devices[0]] + devices[1..];
      if devices[0].kind == kind then [devices[0]] + DevicesOfKind(devices[1..], kind)
      else DevicesOfKind(devices[1..], kind)
  }

  /** Each device of the kind is kept as often as it is listed, and no other device is. */
  lemma {:induction false} DevicesOfKindCounts(devices: seq<MediaDevice>, kind: string)
    ensures forall d :: multiset(DevicesOfKind(devices, kind))[d] == if d.kind == kind then multiset(devices)[d] else 0
    decreases |devices|
  {
    if devices != [] {
      assert devices == [devices[0]] + devices[1..];
      DevicesOfKindCounts(devices[1..], kind);
    }
  }

  /**
   Filtering a concatenation is concatenating the filtered parts; with the
   one-device case this fixes the result completely, so the filter keeps
   the enumeration order.
   */
  lemma {:induction false} DevicesOfKindAppend(a: seq<MediaDevice>, b: seq<MediaDevice>, kind: string)
    ensures DevicesOfKind(a + b, kind) == DevicesOfKind(a, kind) + DevicesOfKind(b, kind)
    decreases |a|
  {
    if a == [] {
      assert a + b == b;
    } else {
      assert (a + b)[0] == a[0];
      assert (a + b)[1..] == a[1..] + b;
      DevicesOfKindAppend(a[1..], b, kind);
    }
  }
}
